=== FILE: README.md ===
# ComfyUI-utils text nodes, in Dafny

A model of the text utilities of the ComfyUI-utils custom-node package:

- the **Text Joiner** node the package registers (`__init__.py`): up to 25
  optional `text_N` boxes, read in slot-number order, optionally stripped
  of white space, empty ones dropped, the rest joined with `join_string`;
- the payload-aware joiner in `nodes/text_joiner.py`: a slot count taken
  from the `data_payload` JSON list (never fewer than 5), an `import_list`
  spread over those slots with the overflow joined into the last one, or
  else the `text_N` arguments in slot order; values are stripped of white
  space and commas before joining;
- the **Text Splitter** (`nodes/text_splitter.py`): Python's `str.split`,
  with a typed `\n` meaning a newline;
- the front end of the joiner (`js/text_joiner.js`): the creation pass that
  hides boxes 6 to 25, the *Add text box* button that appends the next
  numbered box (up to 25), the move of that button under `trim_whitespace`,
  and the re-creation of extra boxes when a saved workflow is loaded;
- the wildcard autocomplete (`js/autocomplete.js`): the `__` trigger scan,
  the case-insensitive filter, the popup state (show, hide, selection,
  arrow keys with wrap-around, Enter/Tab, Escape, pointer) and the
  insertion of the chosen name into the text field;
- the wildcard listing (`utils/wildcards.py`): `.txt` file stems and YAML
  key paths to lists, each wrapped in `__`, de-duplicated and sorted.

Modules follow the source: `Strings` and `Decimal` model the Python and
JavaScript built-ins the code relies on (`join`, `split`, `strip`,
`int()`, `parseInt`, `toLowerCase`); `TextKeys` holds the
`text_N` naming shared by both languages; `RegisteredJoiner`,
`PayloadJoiner`, `Splitter`, `WidgetList`, `Autocomplete` and `Wildcards`
model one source file each (`Autocomplete` also models `lastIndexOf`);
`RoundTrip` relates the joiner and the splitter.

Where the three places that number the text slots disagree, the model
follows each one's code: `__init__.py` declares `text_1` … `text_25`,
`nodes/text_joiner.py` declares `text_0` … `text_4`, and the front end
assumes the first five boxes are numbered 1 to 5. The class in
`nodes/text_joiner.py` adds the `data_payload` and `import_list` inputs,
but only the class in `__init__.py` is entered in `NODE_CLASS_MAPPINGS`; both
are modelled.

The popup's operations require the invariant `Autocomplete.Valid` (a
visible popup has items, its selection is in range, its target field
exists and every field's selection lies inside its value), which the
initial state satisfies and every operation preserves. Under it the
clamping that `setRangeText` applies to out-of-range positions never
occurs; the one case where `setRangeText` throws (a trigger position after
the selection end, possible once the user has moved the caret back) is
modelled as leaving the editor unchanged.

## Model

| member | source | states |
|---|---|---|
| Strings.JoinEmptyIff | __init__.py:57 | joining values that are all non-empty gives the empty string exactly when there are no values |
| Strings.JoinConcat | nodes/text_joiner.py:82 | joining two non-empty lists is joining each and putting one separator between them |
| Strings.JoinEnds | nodes/text_joiner.py:143 | joining non-empty parts starts with the first part's first character and ends with the last part's last character |
| Strings.FindFrom | nodes/text_splitter.py:28 | the first occurrence of the separator at or after a position, or none when there is none |
| Strings.JoinSplit | nodes/text_splitter.py:28 | the parts of `str.split` joined with the separator give back the text |
| Strings.SplitIsGreedy | nodes/text_splitter.py:28 | `str.split` cuts at the leftmost non-overlapping occurrences: no part but the last holds an earlier occurrence |
| Strings.SplitJoin | nodes/text_splitter.py:28 | splitting the join of parts cut that way gives the parts back |
| Strings.GreedyPartsLackSeparator | nodes/text_splitter.py:28 | no part of a split contains the separator |
| Strings.SingleCharGreedy | nodes/text_splitter.py:28 | with a one-character separator, parts that do not contain it are always cut that way |
| Strings.Strip | __init__.py:50 | `strip()` leaves no removable character at either end, gives the empty string exactly when every character is removable, and leaves already-clean text alone |
| Strings.StripRemovesOnlyEnds | __init__.py:50 | `strip()` is the text with a run of removable characters taken off the front and a run taken off the back, and nothing else removed |
| Strings.Lower | js/autocomplete.js:165 | `toLowerCase` keeps the length, leaves no capital letter, turns each capital into its small letter and keeps every other character |
| Strings.LowerIdempotent | js/autocomplete.js:165 | lower-casing twice is lower-casing once |
| Decimal.NatToStringValue | __init__.py:18 | the decimal text of a number reads back as that number |
| Decimal.PyInt | __init__.py:37 | `int()` of a string of digits is its decimal value |
| Decimal.JsParseInt | js/text_joiner.js:21 | `parseInt` of a string starting with a digit is the value of its leading digit run; the empty string is not a number |
| Decimal.ParsePrinted | js/text_joiner.js:39 | both readers read a printed number back as that number |
| Decimal.TrailingTextDiffers | __init__.py:37 | for any run of digits followed by a character that is neither a digit nor white space, `int()` fails while `parseInt` returns the value of the digits (`int("7a")` fails, `parseInt("7a")` is 7) |
| Decimal.PyIntRejectsTrailing | __init__.py:37 | `int()` rejects digits followed by any non-digit, non-space character, whatever comes after |
| Decimal.JsParseIntStopsAtTrailing | js/text_joiner.js:21 | `parseInt` of digits followed by a non-digit character and any further text is the value of those digits alone |
| TextKeys.TextNameIndex | __init__.py:37 | `text_N` reads back as slot N in Python and in the front end |
| TextKeys.TextNamesIndex | __init__.py:17-18 | every name of a run reads back as its own number on both sides |
| TextKeys.TextNameInjective | __init__.py:18 | different numbers give different slot names |
| TextKeys.UpToUnderscore | __init__.py:37 | `split("_")[1]` of a `text_` name: the longest underscore-free prefix of what follows `text_` |
| TextKeys.EntriesMembers | __init__.py:33-40 | the kept arguments are exactly those whose names carry a slot number |
| TextKeys.SortByIndex | __init__.py:42 | sorting by slot number gives an ordered list with, for every number, the same entries in the same order (a stable sort) |
| TextKeys.InsertWithIndex | __init__.py:42 | inserting into a sorted list puts the entry first among those with its slot number |
| TextKeys.SortedUnique | __init__.py:42 | two slot-ordered lists with the same entries per slot number in the same order are equal, so the stable sort's result is determined |
| RegisteredJoiner.DeclaredInputs | __init__.py:6-20 | the two required settings and 25 optional boxes whose names read back as slots 1 to 25 |
| RegisteredJoiner.Clean | __init__.py:48-53 | without trimming only the empty string is dropped; with trimming a value is dropped exactly when it is all white space; a kept value is non-empty |
| RegisteredJoiner.TrimmedEnds | __init__.py:50 | a trimmed value kept has no white space at either end and occurs inside the original |
| RegisteredJoiner.Collect | __init__.py:44-54 | the kept values are non-empty, at most one per box, and none exactly when every box cleans to nothing |
| RegisteredJoiner.CollectConcat | __init__.py:44-54 | boxes are cleaned one at a time: collecting a concatenation concatenates the collections |
| RegisteredJoiner.ProcessText | __init__.py:27-59 | the output is empty exactly when no box kept a value |
| RegisteredJoiner.IgnoresUnnumbered | __init__.py:33-40 | an argument whose name carries no slot number does not change the output |
| RegisteredJoiner.SlotOrderWins | __init__.py:42-54 | values are joined in slot-number order, whatever order the arguments come in |
| PayloadJoiner.DeclaredInputs | nodes/text_joiner.py:8-26 | the required settings, `data_payload`, `import_list`, then five boxes read back as slots 0 to 4 |
| PayloadJoiner.SlotCount | nodes/text_joiner.py:45-58 | the payload list's length when it is at least 5, otherwise 5 (also for a non-list or unparsable payload) |
| PayloadJoiner.DistributeFrom | nodes/text_joiner.py:72-88 | from slot i on: one item per slot before the last, the rest joined into the last, nothing past the items |
| PayloadJoiner.Distribute | nodes/text_joiner.py:72-88 | as many values as the smaller of items and slots; item j in slot j before the last; the last slot holds the remaining items joined |
| PayloadJoiner.DistributeKeepsJoin | nodes/text_joiner.py:72-88 | spreading items over slots and joining the slots gives the same text as joining the items |
| PayloadJoiner.IndexDict | nodes/text_joiner.py:107-113 | the dictionary has a key for each slot number some argument carries, holding the last such argument's value |
| PayloadJoiner.LastWithSome | nodes/text_joiner.py:107-113 | a slot number has a value exactly when some argument carries it |
| PayloadJoiner.LastWithIsLast | nodes/text_joiner.py:107-113 | the value kept for a slot is the one of the last argument carrying it |
| PayloadJoiner.SortedKeys | nodes/text_joiner.py:116 | `sorted(input_dict.keys())`: strictly increasing and exactly the dictionary's keys |
| PayloadJoiner.ManualValues | nodes/text_joiner.py:116-124 | one value per distinct slot number, in increasing order, each the last value given for it |
| PayloadJoiner.SourceValues | nodes/text_joiner.py:60-124 | import mode takes the import list spread over min(items, slots) slots, as `Distribute` gives it; otherwise the manual values, whatever the payload |
| PayloadJoiner.StripRaw | nodes/text_joiner.py:134 | `strip(',')` leaves no comma at either end and gives nothing exactly for all-comma text |
| PayloadJoiner.Clean | nodes/text_joiner.py:127-140 | a kept value is non-empty; without trimming a value is dropped exactly when it is all commas |
| PayloadJoiner.CleanEnds | nodes/text_joiner.py:127-140 | a kept value has no comma at either end and, when trimming, no white space either |
| PayloadJoiner.CollectValues | nodes/text_joiner.py:127-141 | the kept values are non-empty, at most one per source value, and none exactly when all clean to nothing |
| PayloadJoiner.CollectValuesOne | nodes/text_joiner.py:127-141 | a single value is kept as its cleaned form or dropped |
| PayloadJoiner.CollectValuesConcat | nodes/text_joiner.py:127-141 | values are cleaned one by one and kept in source order: collecting a concatenation concatenates the collections |
| PayloadJoiner.CollectValuesMembers | nodes/text_joiner.py:127-141 | a value is kept exactly when it is the cleaned form of some source value |
| PayloadJoiner.ProcessText | nodes/text_joiner.py:34-145 | the output is empty exactly when no value was kept |
| PayloadJoiner.PlainKept | nodes/text_joiner.py:128-140 | a non-empty value with no comma at either end passes cleaning unchanged when not trimming |
| PayloadJoiner.CollectPlain | nodes/text_joiner.py:127-141 | such values are all kept, unchanged and in order |
| PayloadJoiner.ImportKeepsText | nodes/text_joiner.py:60-88 | importing such items gives the items joined, whatever the slot count |
| Splitter.SplitText | nodes/text_splitter.py:20-31 | empty text gives no parts; an empty delimiter raises; otherwise the parts join back to the text, hold no delimiter and are cut at the leftmost occurrences |
| Splitter.SplitJoined | nodes/text_splitter.py:28 | splitting the join of parts that lack a one-character separator gives the parts back |
| RoundTrip.JoinThenSplit | __init__.py:44-57 | the splitter applied to the joiner's output with the same one-character separator gives the kept values back |
| RoundTrip.SplitThenImport | nodes/text_joiner.py:60-88 | the payload-aware joiner fed the splitter's parts rebuilds the split text |
| WidgetList.KeepVisibleMembers | js/text_joiner.js:15-28 | after the creation pass a widget is present exactly when it was present and is not a `text_N` box with N > 5 |
| WidgetList.KeepVisibleConcat | js/text_joiner.js:15-28 | the creation pass decides each widget on its own, keeping order |
| WidgetList.DropHidden | js/text_joiner.js:16-27 | the backward splicing loop removes exactly the hidden widgets |
| WidgetList.HideExtraTextWidgets | js/text_joiner.js:15-28 | the creation pass keeps exactly the widgets that are not hidden, in order |
| WidgetList.CreationPass | js/text_joiner.js:15-28 | of widgets it does not hide followed by boxes 1 to n, the pass keeps those widgets and the boxes numbered up to 5 |
| WidgetList.ButtonMovedUp | js/text_joiner.js:71-81 | the button appended after a setting, `trim_whitespace` and other widgets ends up right after `trim_whitespace`, the others keeping their order |
| WidgetList.MaxIndex | js/text_joiner.js:33-46 | the highest slot number among the widgets, 0 when there is none |
| WidgetList.AddedSlotIsNext | js/text_joiner.js:31-65 | below 25, pressing the button appends exactly one text box after the existing widgets, reading as one above every slot present, so the highest slot grows by one |
| WidgetList.AddExtendsLayout | js/text_joiner.js:31-65 | pressing the button on a node with boxes 1 to k adds box k + 1, and does nothing at k = 25 |
| WidgetList.LayoutGrows | js/text_joiner.js:53-58 | the layout with k + 1 boxes is the one with k boxes and box k + 1 appended |
| WidgetList.LayoutMaxIndex | js/text_joiner.js:33-46 | the highest number on a node with boxes 1 to k is k |
| WidgetList.FirstWhere | js/text_joiner.js:72 | `findIndex`: the first position satisfying the test, or none when no widget does |
| WidgetList.MoveUp | js/text_joiner.js:77-78 | the button lands just after `trim_whitespace`, the widgets before are unchanged, and removing it from both lists gives the same list |
| WidgetList.MoveUpPermutes | js/text_joiner.js:77-78 | the move is a permutation |
| WidgetList.Reposition | js/text_joiner.js:71-81 | the widgets are permuted; when the button is not more than one place below `trim_whitespace` nothing moves; otherwise it sits just after it |
| WidgetList.RepositionIdempotent | js/text_joiner.js:71-81 | repositioning twice is repositioning once |
| WidgetList.NodeCreated | js/text_joiner.js:14-81 | after creation the widgets are the unhidden ones plus the button |
| WidgetList.CreatedFrom | js/text_joiner.js:14-81 | a node created with the settings and boxes 1 to n, n ≥ 5, shows the settings, the button, then boxes 1 to 5 |
| WidgetList.InitialLayout | js/text_joiner.js:14-81 | a new node shows the two settings, the button, then boxes 1 to 5 |
| WidgetList.DeclaredWidgetsAre | __init__.py:6-20 | the host creates the two settings then boxes 1 to 25 |
| WidgetList.RestoreFrom | js/text_joiner.js:148-171 | the boxes re-created from the i-th extra on, numbered 6 + i onward, stopping at 25 |
| WidgetList.Restore | js/text_joiner.js:101-172 | nothing is added for a missing or short save; otherwise min(saved − 7, 20) boxes numbered 6 onward are appended after the existing widgets |
| WidgetList.LayoutSavedCount | js/text_joiner.js:138-147 | a node with boxes 1 to k saves k + 2 values, the button saving none |
| WidgetList.RestoredBoxes | js/text_joiner.js:148-171 | the restore loop for up to 20 extra values re-creates exactly boxes 6, 7, … in order |
| WidgetList.SavedButtonAddsBox | js/text_joiner.js:138-171 | were the button saved as well, reloading boxes 1 to k would give boxes 1 to k + 1 |
| WidgetList.SaveReload | js/text_joiner.js:138-171 | reloading a node saved with boxes 1 to k (5 ≤ k ≤ 25) gives back boxes 1 to k |
| Autocomplete.LastIndexOf | js/autocomplete.js:159 | the last position at or before `from` where the pattern occurs, none exactly when there is no such position |
| Autocomplete.ScanTrigger | js/autocomplete.js:159-161 | the last `__` starting at or before the caret and fewer than 50 back; none exactly when no `__` starts in that window |
| Autocomplete.QueryStartsWithMarker | js/autocomplete.js:162 | the query begins with `__` once the caret is past the marker |
| Autocomplete.MatchesMembers | js/autocomplete.js:165 | a name is offered exactly when it is cached and contains the query, ignoring case |
| Autocomplete.MatchesConcat | js/autocomplete.js:165 | filtering keeps cache order |
| Autocomplete.MatchesEmptyQuery | js/autocomplete.js:165 | every name matches the empty query |
| Autocomplete.Shown | js/autocomplete.js:173 | the first ten matches, or all when fewer |
| Autocomplete.ShownItemsMatch | js/autocomplete.js:165-173 | shown items all match, and when fewer than ten are shown every match is shown |
| Autocomplete.Select | js/autocomplete.js:79-97 | with no target nothing changes; otherwise the text from the trigger to the selection end is replaced by the name, the caret follows it, the popup hides and other fields are unchanged |
| Autocomplete.WrapNext | js/autocomplete.js:129 | `(i + 1) % n`: the next index, wrapping from the last to the first |
| Autocomplete.WrapPrev | js/autocomplete.js:135 | `(i - 1 + n) % n`: the previous index, wrapping from the first to the last |
| Autocomplete.KeyDown | js/autocomplete.js:125-151 | keys do nothing while the popup is hidden; arrows move the selection with wrap-around, keep it in range and change nothing else; Enter and Tab insert the selected item; Escape hides; other keys do nothing |
| Autocomplete.Commit | js/autocomplete.js:139-143 | Enter or Tab replaces the text from the marker to the end of the selection with the highlighted item, puts the caret after it, hides the popup and leaves other fields alone; an empty item changes nothing |
| Autocomplete.Hover | js/autocomplete.js:53-56 | the pointer moves the selection to the item under it and changes nothing else, in the popup or the fields |
| Autocomplete.Click | js/autocomplete.js:52 | clicking an item, even an empty one, replaces the text from the marker to the end of the selection with it, puts the caret after it and hides the popup |
| Autocomplete.InputShows | js/autocomplete.js:153-185 | a shown popup targets this field at the last `__` fewer than 50 characters before the caret and lists one to ten cached names containing the query, all of them when fewer than ten; a hidden popup means no such marker or no matching name; fields are not changed |
| Autocomplete.MarkerAtCaret | js/autocomplete.js:159-178 | a `__` starting exactly at the caret triggers with an empty query, offering the first ten cached names |
| Autocomplete.DownThenUp | js/autocomplete.js:127-137 | ArrowUp undoes ArrowDown |
| Autocomplete.UpThenDown | js/autocomplete.js:127-137 | ArrowDown undoes ArrowUp |
| Autocomplete.InitialValid | js/autocomplete.js:32-36 | the initial popup satisfies the invariant |
| Autocomplete.SelectValid | js/autocomplete.js:79-97 | inserting a name keeps the invariant |
| Autocomplete.KeyDownValid | js/autocomplete.js:125-151 | every key keeps the invariant |
| Autocomplete.PointerValid | js/autocomplete.js:52-56 | hovering and clicking keep the invariant |
| Autocomplete.InputValid | js/autocomplete.js:153-185 | typing keeps the invariant |
| Wildcards.Wrap | utils/wildcards.py:26 | a name is its text with `__` on both sides: four longer, `__` at each end, the text in between |
| Wildcards.TxtStem | utils/wildcards.py:24-25 | the stem followed by `.txt` is the file name |
| Wildcards.TxtName | utils/wildcards.py:22-26 | a `.txt` file's name is a wildcard name whose middle, with `.txt` appended, is the file name |
| Wildcards.ParseYamlNode | utils/wildcards.py:31-39 | a list is named by its path, a scalar gives nothing, and every name is wrapped in `__` |
| Wildcards.ParseEntriesConcat | utils/wildcards.py:33-36 | a mapping's names are its entries' names in key order |
| Wildcards.SingleEntry | utils/wildcards.py:34-36 | a one-key mapping names what its child names, one path level down |
| Wildcards.LexIrreflexive | utils/wildcards.py:50 | no string sorts before itself |
| Wildcards.LexTransitive | utils/wildcards.py:50 | string order is transitive |
| Wildcards.LexTotal | utils/wildcards.py:50 | of two different strings one sorts first |
| Wildcards.LexAsymmetric | utils/wildcards.py:50 | two strings never sort before each other |
| Wildcards.InsertSorted | utils/wildcards.py:50 | inserting into a strictly ascending list keeps it strictly ascending and adds exactly the new name |
| Wildcards.SortedSet | utils/wildcards.py:50 | `sorted(set(names))` is strictly ascending with exactly the given names |
| Wildcards.SortedSetUnique | utils/wildcards.py:50 | a strictly ascending list is determined by its members |
| Wildcards.YamlFileNames | utils/wildcards.py:41-48 | a file that failed to load contributes nothing; every name is wrapped in `__` |
| Wildcards.Collected | utils/wildcards.py:21-48 | every collected name is wrapped in `__` |
| Wildcards.GetWildcards | utils/wildcards.py:7-50 | nothing without the directory; otherwise every collected name exactly once, strictly ascending |
| Wildcards.TxtFileListed | utils/wildcards.py:22-26 | each `.txt` file's wrapped stem is listed |
| Wildcards.YamlFileListed | utils/wildcards.py:41-46 | each name found in a loaded YAML file is listed |
| Wildcards.TopLevelLists | utils/wildcards.py:37-45 | an empty top-level list is skipped, a non-empty one is named `____`, and an empty list under a key is named by the key |

## Left out

- Rendering, node resizing, `alert`, `preventDefault` and the popup's screen position: they change no state the model keeps.
- Autocomplete.Select: the source's last step, `this.targetInput.focus()` (js/autocomplete.js:96), runs after `hide()` has set `targetInput` to `null` (js/autocomplete.js:70), so it throws once the insertion and the hiding are done; the model stops at the state after `hide()`, which is what the thrown error leaves behind, and does not model the error itself or the focus it was meant to give.
- The host's widget factory (`ComfyWidgets.STRING`) is modelled as appending one input widget named as given; the host framework is not part of this model.
- Fetching the wildcard list over HTTP (`fetchWildcards`, `setup_wildcard_api`) and the `setup` hook: the cache is a parameter of `Autocomplete.Input`.
- The wiring that attaches the handlers to each `text_` widget (`attachAutocomplete`) and the wrapping of `onNodeCreated`/`onConfigure`: the model's operations are the handlers themselves.
- The file system: the directory test, the glob listings and file reads become parameters of `Wildcards.GetWildcards` (the listed `.txt` names, and each YAML file as loaded or failed). The `print` of a YAML error is left out.
- `json.loads`: only its outcome matters (a list and its length, another value, or an error), so `PayloadJoiner.PayloadParse` stands for it.
- `yaml.safe_load`: `Wildcards.Yaml` keeps string keys, lists and scalars reduced to their truth value. Keys of other types are formatted with `str()` in the source and are left out.
- Wildcards.TxtStem: glob's own matching rules are not modelled; a listed file is taken to be any name of more than four characters that ends in `.txt` and does not start with a dot.
- WidgetList.SaveReload: relies on the host not saving the add button's value, as the comment at js/text_joiner.js:139-140 states; the host's serialiser is not part of this model, and were the button saved, each reload would add one box (WidgetList.SavedButtonAddsBox).
- Strings.Lower: folds ASCII letters only; full Unicode case mapping is left out.
- Decimal.JsParseInt: decimal only; hexadecimal `0x` prefixes are left out because slot names never carry them.
- Decimal.PyInt: ASCII digits only; Python's acceptance of other Unicode digits and of underscores between digits is left out (the index text never holds an underscore).
- Autocomplete: JavaScript strings are modelled as sequences of characters rather than UTF-16 code units, so the 50-unit look-back counts characters.
- Autocomplete.KeyDown, Autocomplete.Select, Autocomplete.Commit, Autocomplete.Hover, Autocomplete.Click: require the invariant `Valid`; the source's behaviour outside that invariant (for example `NaN` selection indices when the popup is visible with no items) is not modelled.
- Strings.SplitIsGreedy: the number of parts `str.split` returns is stated through where it cuts (leftmost, non-overlapping occurrences), not as a count of occurrences.
- WidgetList.Restore: widget values are not modelled. The source re-creates the extra boxes after the host's `onConfigure` has run and gives them no value, so whether their saved contents come back depends on the host; only the number of boxes re-created is modelled.

=== FILE: autocomplete.dfy ===
/**
 The wildcard autocomplete of `js/autocomplete.js`: the `input` handler that
 looks back from the caret for the `__` marker and filters the cached wildcard
 names, the `keydown` handler that moves the highlight and commits, and the
 popup's `show`, `hide` and `select`, as a record-valued state machine over
 the popup and the text fields it edits. Text is a sequence of characters,
 one `char` each.
 */
module Autocomplete {
  import opened Wrappers
  import opened Strings

  /** The marker that opens a wildcard name. */
  const Marker: string := "__"
  /** The marker is accepted only when fewer than this many characters lie between it and the caret. */
  const Lookback: int := 50
  /** At most this many matches are shown. */
  const MaxShown: nat := 10

  /** JavaScript's `s.lastIndexOf(pat, from)`: the last index at or before
      `from` where `pat` occurs. */
  function LastIndexOf(s: string, pat: string, from: nat): (r: Option<nat>)
    ensures r.Some? ==> r.value <= from && OccursAt(s, pat, r.value)
    ensures r.Some? ==> forall q :: r.value < q <= from ==> !OccursAt(s, pat, q)
    ensures r.None? ==> forall q :: 0 <= q <= from ==> !OccursAt(s, pat, q)
  {
    if OccursAt(s, pat, from) then Some(from)
    else if from == 0 then None
    else LastIndexOf(s, pat, from - 1)
  }

  /** The trigger scan: the last marker at or before the caret, accepted when
      it lies fewer than 50 characters back; no trigger exactly when no marker
      starts in that window. */
  function ScanTrigger(val: string, cursor: nat): (r: Option<nat>)
    ensures r.Some? ==> r.value <= cursor && cursor - r.value < Lookback && OccursAt(val, Marker, r.value)
    ensures r.Some? ==> forall q :: r.value < q <= cursor ==> !OccursAt(val, Marker, q)
    ensures r.None? <==> forall q :: 0 <= q <= cursor && cursor - q < Lookback ==> !OccursAt(val, Marker, q)
  {
    match LastIndexOf(val, Marker, cursor)
    case Some(p) => if cursor - p < Lookback then Some(p) else None
    case None => None
  }

  /** The query: the text from the marker up to the caret. */
  function Query(val: string, p: nat, cursor: nat): string
    requires p <= cursor <= |val|
  {
    val[p..cursor]
  }

  /** The query begins with the marker whenever the caret is past it. */
  lemma QueryStartsWithMarker(val: string, cursor: nat)
    requires cursor <= |val| && ScanTrigger(val, cursor).Some?
    requires ScanTrigger(val, cursor).value + |Marker| <= cursor
    ensures StartsWith(Query(val, ScanTrigger(val, cursor).value, cursor), Marker)
  {
    var p := ScanTrigger(val, cursor).value;
    assert Query(val, p, cursor)[..2] == val[p..p + 2];
  }

  /** Case-insensitive containment: `w.toLowerCase().includes(q.toLowerCase())`. */
  predicate MatchesQuery(w: string, q: string)
  {
    Contains(Lower(w), Lower(q))
  }

  /** `cache.filter(...)`: the matching names, in cache order. */
  function Matches(cache: seq<string>, q: string): (r: seq<string>)
    ensures |r| <= |cache|
    ensures forall i :: 0 <= i < |r| ==> MatchesQuery(r[i], q)
  {
    if |cache| == 0 then []
    else (if MatchesQuery(cache[0], q) then [cache[0]] else []) + Matches(cache[1..], q)
  }

  lemma {:induction false} MatchesMembers(cache: seq<string>, q: string, w: string)
    ensures w in Matches(cache, q) <==> w in cache && MatchesQuery(w, q)
    decreases |cache|
  {
    if |cache| > 0 {
      MatchesMembers(cache[1..], q, w);
      assert cache == [cache[0]] + cache[1..];
    }
  }

  /** Filtering keeps cache order: the matches of a concatenation are the matches of each half. */
  lemma {:induction false} MatchesConcat(a: seq<string>, b: seq<string>, q: string)
    ensures Matches(a + b, q) == Matches(a, q) + Matches(b, q)
    decreases |a|
  {
    if |a| > 0 {
      assert (a + b)[0] == a[0] && (a + b)[1..] == a[1..] + b;
      MatchesConcat(a[1..], b, q);
    } else {
      assert a + b == b;
    }
  }

  /** The items shown: the first ten matches, or all of them when fewer. */
  function Shown(cache: seq<string>, q: string): (r: seq<string>)
    ensures |r| <= MaxShown
    ensures |r| == if |Matches(cache, q)| < MaxShown then |Matches(cache, q)| else MaxShown
    ensures r == Matches(cache, q)[..|r|]
  {
    var m := Matches(cache, q);
    if |m| <= MaxShown then m else m[..MaxShown]
  }

  /** A text field: its value and its selection. */
  datatype Field = Field(value: string, selStart: nat, selEnd: nat)

  predicate WellFormed(f: Field)
  {
    f.selStart <= f.selEnd <= |f.value|
  }

  type FieldId = nat

  /** The popup: whether it is shown, the highlighted item, the items, the
      field it completes and where the marker starts in that field. */
  datatype Popup = Popup(visible: bool, selectedIndex: int, items: seq<string>,
                         target: Option<FieldId>, triggerPos: nat)

  /** The popup together with the text fields it can edit. */
  datatype Editor = Editor(popup: Popup, fields: map<FieldId, Field>)

  /** The state the constructor leaves: hidden, nothing listed, no target. */
  const Initial: Popup := Popup(false, 0, [], None, 0)

  /** The state every handler keeps: the popup is shown exactly when it has a
      target field; when shown it has items and one of them highlighted; the
      target is a known field; every field's selection lies within its text. */
  predicate Valid(ed: Editor)
  {
    var p := ed.popup;
    (p.visible <==> p.target.Some?) &&
    (p.visible ==> |p.items| > 0 && 0 <= p.selectedIndex < |p.items|) &&
    (p.target.Some? ==> p.target.value in ed.fields) &&
    (forall id :: id in ed.fields ==> WellFormed(ed.fields[id]))
  }

  /** `show`: new items, the first highlighted, shown for `target` with the marker at `triggerPos`. */
  function Show(p: Popup, items: seq<string>, target: FieldId, triggerPos: nat): (r: Popup)
    ensures r.visible && r.selectedIndex == 0 && r.items == items
    ensures r.target == Some(target) && r.triggerPos == triggerPos
  {
    Popup(true, 0, items, Some(target), triggerPos)
  }

  /** `hide`: not shown, no target; the items, highlight and trigger position stay. */
  function Hide(p: Popup): (r: Popup)
    ensures !r.visible && r.target.None?
    ensures r.items == p.items && r.selectedIndex == p.selectedIndex && r.triggerPos == p.triggerPos
  {
    p.(visible := false, target := None)
  }

  /** The outcome of completing with `value` in a popup that has a target
      whose marker lies at or before the end of the selection: in the target
      field the text from the marker to the end of the selection is replaced
      by `value`, the caret sits right after it, the popup is hidden with its
      items kept, and every other field is unchanged. */
  predicate Inserted(ed: Editor, value: string, r: Editor)
    requires Valid(ed) && ed.popup.target.Some?
  {
    var id := ed.popup.target.value;
    var f := ed.fields[id];
    var tp := ed.popup.triggerPos;
    && tp <= f.selEnd
    && id in r.fields
    && r.fields[id].value == f.value[..tp] + value + f.value[f.selEnd..]
    && r.fields[id].selStart == tp + |value| == r.fields[id].selEnd
    && !r.popup.visible && r.popup.target.None? && r.popup.items == ed.popup.items
    && r.fields.Keys == ed.fields.Keys
    && (forall other :: other in ed.fields && other != id ==> other in r.fields && r.fields[other] == ed.fields[other])
  }

  /** Whether the marker still lies at or before the end of the target field's selection. */
  predicate MarkerBeforeSelectionEnd(ed: Editor)
    requires Valid(ed) && ed.popup.target.Some?
  {
    ed.popup.triggerPos <= ed.fields[ed.popup.target.value].selEnd
  }

  /** `select(value)`: nothing happens without a target; otherwise
      `setRangeText(value, triggerPos, selectionEnd, "end")` replaces the
      text from the marker to the end of the selection with `value` and puts
      the caret after it, and the popup is hidden. `setRangeText` throws when
      the start lies after the end, which leaves everything as it was. */
  function Select(ed: Editor, value: string): (r: Editor)
    requires Valid(ed)
    ensures ed.popup.target.None? ==> r == ed
    ensures ed.popup.target.Some? && !MarkerBeforeSelectionEnd(ed) ==> r == ed
    ensures ed.popup.target.Some? && MarkerBeforeSelectionEnd(ed) ==> Inserted(ed, value, r)
  {
    match ed.popup.target
    case None => ed
    case Some(id) =>
      var f := ed.fields[id];
      var tp := ed.popup.triggerPos;
      if tp > f.selEnd then ed
      else
        var text := f.value[..tp] + value + f.value[f.selEnd..];
        var caret := tp + |value|;
        Editor(Hide(ed.popup), ed.fields[id := Field(text, caret, caret)])
  }

  /** ArrowDown's `(i + 1) % n`: the next item, wrapping to the first. */
  function WrapNext(i: int, n: int): (r: int)
    requires 0 <= i < n
    ensures r == if i == n - 1 then 0 else i + 1
  {
    (i + 1) % n
  }

  /** ArrowUp's `(i - 1 + n) % n`: the previous item, wrapping to the last. */
  function WrapPrev(i: int, n: int): (r: int)
    requires 0 <= i < n
    ensures r == if i == 0 then n - 1 else i - 1
  {
    (i - 1 + n) % n
  }

  datatype Key = ArrowDown | ArrowUp | Enter | Tab | Escape | OtherKey

  /** The `keydown` handler: ignored while hidden; the arrows move the
      highlight with wrap-around; Enter and Tab commit the highlighted item
      unless it is the empty string; Escape hides; other keys do nothing. */
  function KeyDown(ed: Editor, key: Key): (r: Editor)
    requires Valid(ed)
    ensures !ed.popup.visible ==> r == ed
    ensures ed.popup.visible && (key == ArrowDown || key == ArrowUp) ==>
      r.fields == ed.fields && r.popup.(selectedIndex := ed.popup.selectedIndex) == ed.popup &&
      0 <= r.popup.selectedIndex < |ed.popup.items|
    ensures ed.popup.visible && key == ArrowDown ==>
      r.popup.selectedIndex == (if ed.popup.selectedIndex == |ed.popup.items| - 1 then 0 else ed.popup.selectedIndex + 1)
    ensures ed.popup.visible && key == ArrowUp ==>
      r.popup.selectedIndex == (if ed.popup.selectedIndex == 0 then |ed.popup.items| - 1 else ed.popup.selectedIndex - 1)
    ensures ed.popup.visible && (key == Enter || key == Tab) ==> r == Commit(ed)
    ensures ed.popup.visible && key == Escape ==> r.popup == Hide(ed.popup) && r.fields == ed.fields
    ensures ed.popup.visible && key == OtherKey ==> r == ed
  {
    var p := ed.popup;
    if !p.visible then ed
    else
      var n := |p.items|;
      match key
      case ArrowDown => ed.(popup := p.(selectedIndex := WrapNext(p.selectedIndex, n)))
      case ArrowUp => ed.(popup := p.(selectedIndex := WrapPrev(p.selectedIndex, n)))
      case Enter => Commit(ed)
      case Tab => Commit(ed)
      case Escape => ed.(popup := Hide(p))
      case OtherKey => ed
  }

  /** Enter or Tab: the highlighted item, unless it is empty, replaces the
      text from the marker to the end of the selection and the popup hides;
      an empty item, or a marker past the selection, changes nothing. */
  function Commit(ed: Editor): (r: Editor)
    requires Valid(ed) && ed.popup.visible
    ensures var item := ed.popup.items[ed.popup.selectedIndex];
      item != "" && MarkerBeforeSelectionEnd(ed) ==> Inserted(ed, item, r)
    ensures var item := ed.popup.items[ed.popup.selectedIndex];
      item == "" || !MarkerBeforeSelectionEnd(ed) ==> r == ed
  {
    var item := ed.popup.items[ed.popup.selectedIndex];
    if item != "" then Select(ed, item) else ed
  }

  /** The pointer entering item `idx`: it becomes the highlighted one. */
  function Hover(ed: Editor, idx: nat): (r: Editor)
    requires Valid(ed) && ed.popup.visible && idx < |ed.popup.items|
    ensures r.popup.selectedIndex == idx && r.fields == ed.fields
    ensures r.popup.(selectedIndex := ed.popup.selectedIndex) == ed.popup
  {
    ed.(popup := ed.popup.(selectedIndex := idx))
  }

  /** A click on item `idx` inserts it, whatever it is, even the empty
      string that Enter and Tab refuse. */
  function Click(ed: Editor, idx: nat): (r: Editor)
    requires Valid(ed) && ed.popup.visible && idx < |ed.popup.items|
    ensures MarkerBeforeSelectionEnd(ed) ==> Inserted(ed, ed.popup.items[idx], r)
    ensures !MarkerBeforeSelectionEnd(ed) ==> r == ed
  {
    Select(ed, ed.popup.items[idx])
  }

  /** The `input` handler of field `id`, given the cached wildcard names:
      with an accepted marker and at least one match, the popup shows the
      first ten matches for this field; otherwise it is hidden. Fields are
      not changed. */
  function Input(ed: Editor, id: FieldId, cache: seq<string>): (r: Editor)
    requires id in ed.fields && WellFormed(ed.fields[id])
    ensures r.fields == ed.fields
    ensures var f := ed.fields[id]; var t := ScanTrigger(f.value, f.selStart);
      if t.Some? && |Matches(cache, Query(f.value, t.value, f.selStart))| > 0
      then r.popup == Show(ed.popup, Shown(cache, Query(f.value, t.value, f.selStart)), id, t.value)
      else r.popup == Hide(ed.popup)
  {
    var f := ed.fields[id];
    var cursor := f.selStart;
    match ScanTrigger(f.value, cursor)
    case None => ed.(popup := Hide(ed.popup))
    case Some(p) =>
      var matches := Matches(cache, Query(f.value, p, cursor));
      if |matches| > 0 then ed.(popup := Show(ed.popup, Shown(cache, Query(f.value, p, cursor)), id, p))
      else ed.(popup := Hide(ed.popup))
  }

  /** What typing leaves on screen. A shown popup targets this field, its
      marker is the last `__` at or before the caret and fewer than 50
      characters back, the first item is highlighted, and it lists between
      one and ten cached names that contain the query, every such name when
      fewer than ten are listed. A hidden popup means there is no such marker
      or no cached name contains the query. The fields never change. */
  lemma InputShows(ed: Editor, id: FieldId, cache: seq<string>)
    requires id in ed.fields && WellFormed(ed.fields[id])
    ensures Input(ed, id, cache).fields == ed.fields
    ensures var f := ed.fields[id]; var p := Input(ed, id, cache).popup;
      p.visible ==>
        && p.target == Some(id) && p.selectedIndex == 0
        && p.triggerPos <= f.selStart && f.selStart - p.triggerPos < Lookback
        && OccursAt(f.value, Marker, p.triggerPos)
        && (forall q :: p.triggerPos < q <= f.selStart ==> !OccursAt(f.value, Marker, q))
        && 0 < |p.items| <= MaxShown
        && (forall i :: 0 <= i < |p.items| ==>
              p.items[i] in cache && MatchesQuery(p.items[i], Query(f.value, p.triggerPos, f.selStart)))
        && (|p.items| < MaxShown ==>
              forall w :: w in cache && MatchesQuery(w, Query(f.value, p.triggerPos, f.selStart)) ==> w in p.items)
    ensures var f := ed.fields[id]; var p := Input(ed, id, cache).popup; var t := ScanTrigger(f.value, f.selStart);
      !p.visible ==>
        && p == Hide(ed.popup)
        && (t.None? || forall w :: w in cache ==> !MatchesQuery(w, Query(f.value, t.value, f.selStart)))
  {
    var f := ed.fields[id];
    var t := ScanTrigger(f.value, f.selStart);
    if t.Some? {
      var q := Query(f.value, t.value, f.selStart);
      var m := Matches(cache, q);
      var shown := Shown(cache, q);
      ShownItemsMatch(cache, q);
      forall i | 0 <= i < |shown|
        ensures shown[i] in cache
      {
        assert shown[i] == m[i];
        MatchesMembers(cache, q, shown[i]);
      }
      forall w | w in cache && MatchesQuery(w, q)
        ensures w in m
      {
        MatchesMembers(cache, q, w);
      }
    }
  }

  /** Every name matches the empty query. */
  lemma {:induction false} MatchesEmptyQuery(cache: seq<string>)
    ensures Matches(cache, "") == cache
    decreases |cache|
  {
    if |cache| > 0 {
      var w := Lower(cache[0]);
      assert Lower("") == "";
      assert OccursAt(w, "", 0);
      MatchesEmptyQuery(cache[1..]);
      assert cache == [cache[0]] + cache[1..];
    }
  }

  /** A marker that starts exactly at the caret is still "at or before" it:
      the query is empty, every cached name matches, and the popup offers the
      first ten names of the cache. */
  lemma MarkerAtCaret(ed: Editor, id: FieldId, cache: seq<string>)
    requires id in ed.fields && WellFormed(ed.fields[id])
    requires OccursAt(ed.fields[id].value, Marker, ed.fields[id].selStart)
    requires |cache| > 0
    ensures var f := ed.fields[id];
      Input(ed, id, cache).popup == Show(ed.popup, Shown(cache, ""), id, f.selStart)
    ensures Shown(cache, "") == if |cache| <= MaxShown then cache else cache[..MaxShown]
  {
    var f := ed.fields[id];
    assert ScanTrigger(f.value, f.selStart) == Some(f.selStart);
    assert Query(f.value, f.selStart, f.selStart) == "";
    MatchesEmptyQuery(cache);
  }

  /** ArrowUp undoes ArrowDown. */
  lemma DownThenUp(ed: Editor)
    requires Valid(ed) && ed.popup.visible
    ensures Valid(KeyDown(ed, ArrowDown))
    ensures KeyDown(KeyDown(ed, ArrowDown), ArrowUp) == ed
  {
  }

  /** ArrowDown undoes ArrowUp. */
  lemma UpThenDown(ed: Editor)
    requires Valid(ed) && ed.popup.visible
    ensures Valid(KeyDown(ed, ArrowUp))
    ensures KeyDown(KeyDown(ed, ArrowUp), ArrowDown) == ed
  {
  }

  /** The constructor's state is valid for any well-formed fields. */
  lemma InitialValid(fields: map<FieldId, Field>)
    requires forall id :: id in fields ==> WellFormed(fields[id])
    ensures Valid(Editor(Initial, fields))
  {
  }

  /** Selecting keeps the state valid. */
  lemma SelectValid(ed: Editor, value: string)
    requires Valid(ed)
    ensures Valid(Select(ed, value))
  {
  }

  /** Every key keeps the state valid. */
  lemma KeyDownValid(ed: Editor, key: Key)
    requires Valid(ed)
    ensures Valid(KeyDown(ed, key))
  {
  }

  /** Hovering and clicking keep the state valid. */
  lemma PointerValid(ed: Editor, idx: nat)
    requires Valid(ed) && ed.popup.visible && idx < |ed.popup.items|
    ensures Valid(Hover(ed, idx))
    ensures Valid(Click(ed, idx))
  {
    SelectValid(ed, ed.popup.items[idx]);
  }

  /** Typing keeps the state valid: the popup is only shown with matches. */
  lemma InputValid(ed: Editor, id: FieldId, cache: seq<string>)
    requires Valid(ed) && id in ed.fields
    ensures Valid(Input(ed, id, cache))
  {
  }

  /** Everything the popup lists matches the query, and when fewer than ten
      are listed, every matching name in the cache is listed. */
  lemma ShownItemsMatch(cache: seq<string>, q: string)
    ensures forall i :: 0 <= i < |Shown(cache, q)| ==> MatchesQuery(Shown(cache, q)[i], q)
    ensures |Shown(cache, q)| < MaxShown ==>
      forall w :: w in cache && MatchesQuery(w, q) ==> w in Shown(cache, q)
  {
    var m := Matches(cache, q);
    var r := Shown(cache, q);
    assert forall i :: 0 <= i < |r| ==> r[i] == m[i];
    if |r| < MaxShown {
      assert r == m;
      forall w | w in cache && MatchesQuery(w, q)
        ensures w in r
      {
        MatchesMembers(cache, q, w);
      }
    }
  }
}

=== FILE: decimal.dfy ===
/**
 Decimal numerals: the `text_{n}` names the nodes build from a number, and
 the two parsers that read a number back out of a name (Python's `int()` and
 JavaScript's `parseInt`), which disagree about trailing garbage.
 */
module Decimal {
  import opened Wrappers
  import opened Strings

  predicate IsDigit(c: char)
  {
    '0' <= c <= '9'
  }

  predicate AllDigits(s: string)
  {
    forall i :: 0 <= i < |s| ==> IsDigit(s[i])
  }

  function DigitChar(d: nat): (c: char)
    requires d < 10
    ensures IsDigit(c)
  {
    ('0' as int + d) as char
  }

  /** The value of a string of decimal digits (most significant first). */
  function DigitsValue(s: string): nat
    requires AllDigits(s)
    decreases |s|
  {
    if |s| == 0 then 0
    else 10 * DigitsValue(s[..|s| - 1]) + (s[|s| - 1] as int - '0' as int)
  }

  /** Python's `str(n)` and JavaScript's `${n}` for a natural number. */
  function NatToString(n: nat): (r: string)
    ensures |r| > 0 && AllDigits(r)
    ensures n > 0 ==> r[0] != '0'
  {
    if n < 10 then [DigitChar(n)] else NatToString(n / 10) + [DigitChar(n % 10)]
  }

  /** Printing then reading a number gives the number back. */
  lemma {:induction false} NatToStringValue(n: nat)
    ensures DigitsValue(NatToString(n)) == n
  {
    if n >= 10 {
      var s := NatToString(n);
      assert s[..|s| - 1] == NatToString(n / 10);
      NatToStringValue(n / 10);
    }
  }

  /** A leading `+` or `-` and what follows it. */
  function SignSplit(s: string): (bool, string)
  {
    if |s| > 0 && (s[0] == '+' || s[0] == '-') then (s[0] == '-', s[1..]) else (false, s)
  }

  function Signed(negative: bool, magnitude: nat): int
  {
    if negative then -(magnitude as int) else magnitude
  }

  /** Python's `int(s)` on a string: optional surrounding white space, an
      optional sign, then one or more decimal digits; anything else raises
      `ValueError`, modelled as `None`. */
  function PyInt(s: string): (r: Option<int>)
    ensures |s| > 0 && AllDigits(s) ==> r == Some(DigitsValue(s))
  {
    var t := StripSpace(s);
    var (negative, body) := SignSplit(t);
    if |body| > 0 && AllDigits(body) then
      Some(Signed(negative, DigitsValue(body)))
    else None
  }

  /** The longest prefix of `s` made of decimal digits. */
  function DigitPrefix(s: string): (r: string)
    ensures |r| <= |s| && AllDigits(r) && r == s[..|r|]
    ensures |r| < |s| ==> !IsDigit(s[|r|])
    decreases |s|
  {
    if |s| > 0 && IsDigit(s[0]) then [s[0]] + DigitPrefix(s[1..]) else ""
  }

  /** JavaScript's `parseInt(s)` restricted to decimal: leading white space
      is skipped, an optional sign is read, then the longest run of digits;
      `NaN` (modelled as `None`) when that run is empty. Whatever follows the
      digits is ignored. */
  function JsParseInt(s: string): (r: Option<int>)
    ensures |s| > 0 && IsDigit(s[0]) ==> r == Some(DigitsValue(DigitPrefix(s)))
    ensures |s| == 0 ==> r.None?
  {
    var t := TrimStart(s, IsJsSpace);
    var (negative, body) := SignSplit(t);
    var digits := DigitPrefix(body);
    if |digits| > 0 then Some(Signed(negative, DigitsValue(digits))) else None
  }

  lemma DigitPrefixOfDigits(s: string)
    requires AllDigits(s)
    ensures DigitPrefix(s) == s
  {
  }

  /** Both parsers read a printed natural number back exactly. */
  lemma ParsePrinted(n: nat)
    ensures PyInt(NatToString(n)) == Some(n)
    ensures JsParseInt(NatToString(n)) == Some(n)
  {
    NatToStringValue(n);
    DigitPrefixOfDigits(NatToString(n));
  }

  /** The run of digits `DigitPrefix` reads ends exactly where the first
      non-digit begins. */
  lemma {:induction false} DigitPrefixStopsAt(d: string, rest: string)
    requires AllDigits(d)
    requires |rest| > 0 && !IsDigit(rest[0])
    ensures DigitPrefix(d + rest) == d
    decreases |d|
  {
    if |d| == 0 {
      assert d + rest == rest;
    } else {
      assert (d + rest)[1..] == d[1..] + rest;
      DigitPrefixStopsAt(d[1..], rest);
    }
  }

  /** The parsers part ways on trailing text: digits followed by a
      character that is neither a digit nor white space make `int` raise,
      while `parseInt` reads the digits and ignores the rest (`int("7a")`
      fails, `parseInt("7a")` is 7). */
  lemma TrailingTextDiffers(d: string, c: char, t: string)
    requires |d| > 0 && AllDigits(d)
    requires !IsDigit(c) && !IsPySpace(c)
    ensures PyInt(d + [c] + t) == None
    ensures JsParseInt(d + [c] + t) == Some(DigitsValue(d))
  {
    PyIntRejectsTrailing(d, c, t);
    JsParseIntStopsAtTrailing(d, c, t);
  }

  /** `parseInt` reads the leading run of digits and nothing after it. */
  lemma JsParseIntStopsAtTrailing(d: string, c: char, t: string)
    requires |d| > 0 && AllDigits(d)
    requires !IsDigit(c)
    ensures JsParseInt(d + [c] + t) == Some(DigitsValue(d))
  {
    var rest := [c] + t;
    assert d + [c] + t == d + rest;
    assert rest[0] == c && (d + rest)[0] == d[0];
    DigitPrefixStopsAt(d, rest);
  }

  /** `int` keeps the offending character: it is not white space, so
      stripping leaves it inside the text that must be all digits. */
  lemma PyIntRejectsTrailing(d: string, c: char, t: string)
    requires |d| > 0 && AllDigits(d)
    requires !IsDigit(c) && !IsPySpace(c)
    ensures PyInt(d + [c] + t) == None
  {
    var s := d + [c] + t;
    assert s[0] == d[0] && s[|d|] == c;
    assert IsDigit(s[0]) && !IsPySpace(s[0]);
    var st := StripSpace(s);
    StripRemovesOnlyEnds(s, IsPySpace);
    var a :| StrippedAt(s, IsPySpace, st, a);
    assert a == 0;
    assert |d| < |st| && st[|d|] == c;
    assert st[0] == s[0];
  }
}

=== FILE: payload_joiner.dfy ===
/**
 The payload-aware Text Joiner (`TextJoinerNode` in `nodes/text_joiner.py`,
 not the class the package registers). It works out a slot count from the
 `data_payload` JSON text, then takes its values either from an imported
 list spread over those slots or from the `text_N` arguments in slot order,
 cleans them (white space, then commas) and joins the survivors.
 */
module PayloadJoiner {
  import opened Wrappers
  import opened Strings
  import opened TextKeys

  const MinSlots: nat := 5

  /** What `json.loads(data_payload)` produced: a list of some length, some
      other JSON value, or a parse error. */
  datatype PayloadParse = PayloadList(length: nat) | PayloadNotList | PayloadInvalid

  /** The `import_list` argument: absent or falsy, a list of strings, or some
      other truthy value. */
  datatype ImportArg = NoImport | ImportList(items: seq<string>) | ImportOther

  /** `INPUT_TYPES`: the two required settings, then the hidden payload, the
      import socket and five text slots numbered from 0 (the registered node
      numbers its slots from 1). */
  function DeclaredInputs(): (r: InputTypes)
    ensures r.required == ["join_string", "trim_whitespace"]
    ensures |r.optional| == 2 + MinSlots
    ensures r.optional[..2] == ["data_payload", "import_list"]
    ensures forall i :: 2 <= i < |r.optional| ==> PyTextIndex(r.optional[i]) == Some(i - 2)
  {
    var texts := TextNames(0, MinSlots);
    TextNamesIndex(0, texts);
    var optional := ["data_payload", "import_list"] + texts;
    assert forall i :: 2 <= i < |optional| ==> optional[i] == texts[i - 2];
    InputTypes(["join_string", "trim_whitespace"], optional)
  }

  /** The number of slots: the payload list's length when the payload is a
      JSON list, 5 otherwise, and never fewer than 5. */
  function SlotCount(payload: PayloadParse): (r: nat)
    ensures r >= MinSlots
    ensures payload.PayloadList? && payload.length >= MinSlots ==> r == payload.length
    ensures !(payload.PayloadList? && payload.length >= MinSlots) ==> r == MinSlots
  {
    var count := match payload
      case PayloadList(n) => n
      case _ => MinSlots;
    if count < MinSlots then MinSlots else count
  }

  /** Import mode: `import_list` is a non-empty list. */
  predicate ImportMode(imported: ImportArg)
  {
    imported.ImportList? && |imported.items| > 0
  }

  function Min(a: nat, b: nat): nat
  {
    if a <= b then a else b
  }

  /** Iterations `i`, `i + 1`, … `slots - 1` of the import loop: item `i` goes
      to slot `i`, except that the last slot takes the rest of the list
      joined with `sep`; slots past the end of the list get nothing. */
  function DistributeFrom(items: seq<string>, slots: nat, sep: string, i: nat): (r: seq<string>)
    requires i <= slots
    ensures |r| == if Min(|items|, slots) >= i then Min(|items|, slots) - i else 0
    ensures |r| > 0 ==> i + |r| <= |items|
    ensures forall j :: 0 <= j < |r| && i + j < slots - 1 ==> r[j] == items[i + j]
    ensures forall j :: 0 <= j < |r| && i + j == slots - 1 ==> r[j] == Join(sep, items[slots - 1..])
    decreases slots - i
  {
    if i == slots then []
    else
      var here := if i < |items| then (if i == slots - 1 then [Join(sep, items[i..])] else [items[i]]) else [];
      var rest := DistributeFrom(items, slots, sep, i + 1);
      assert i >= |items| ==> rest == [];
      here + rest
  }

  /** The imported list spread over `slots` slots. */
  function Distribute(items: seq<string>, slots: nat, sep: string): (r: seq<string>)
    ensures |r| == Min(|items|, slots)
    ensures forall j :: 0 <= j < |r| && j < slots - 1 ==> r[j] == items[j]
    ensures 0 < slots <= |items| ==> r[slots - 1] == Join(sep, items[slots - 1..])
  {
    DistributeFrom(items, slots, sep, 0)
  }

  /** Spreading a non-empty list over at least one slot loses nothing: joining
      the slots gives the same text as joining the list. */
  lemma DistributeKeepsJoin(items: seq<string>, slots: nat, sep: string)
    requires |items| > 0 && slots > 0
    ensures Join(sep, Distribute(items, slots, sep)) == Join(sep, items)
  {
    var r := Distribute(items, slots, sep);
    if |items| < slots {
      assert r == items;
    } else if slots == 1 {
      assert r == [Join(sep, items)];
    } else {
      var head := items[..slots - 1];
      var tail := items[slots - 1..];
      assert r == head + [Join(sep, tail)];
      JoinConcat(sep, head, [Join(sep, tail)]);
      JoinConcat(sep, head, tail);
      assert items == head + tail;
    }
  }

  /** The value of the last argument (in call order) whose name reads as slot `n`. */
  function LastWith(args: seq<Arg>, n: int): Option<string>
  {
    if |args| == 0 then None
    else if args[|args| - 1].slot == Some(n) then Some(args[|args| - 1].value)
    else LastWith(args[..|args| - 1], n)
  }

  /** `input_dict`: slot number to value, a later argument with the same
      number overwriting an earlier one. */
  function IndexDict(args: seq<Arg>): (r: map<int, string>)
    ensures forall n :: n in r <==> LastWith(args, n).Some?
    ensures forall n :: n in r ==> Some(r[n]) == LastWith(args, n)
  {
    if |args| == 0 then map[]
    else
      var m := IndexDict(args[..|args| - 1]);
      var last := args[|args| - 1];
      match last.slot
      case Some(n) => m[n := last.value]
      case None => m
  }

  /** A slot number has a last argument exactly when some argument carries it. */
  lemma {:induction false} LastWithSome(args: seq<Arg>, n: int)
    ensures LastWith(args, n).Some? <==> exists i :: 0 <= i < |args| && args[i].slot == Some(n)
    decreases |args|
  {
    if |args| > 0 {
      var last := |args| - 1;
      var init := args[..last];
      if args[last].slot != Some(n) {
        LastWithSome(init, n);
        if LastWith(args, n).Some? {
          var i :| 0 <= i < |init| && init[i].slot == Some(n);
          assert args[i] == init[i];
        }
        if exists i :: 0 <= i < |args| && args[i].slot == Some(n) {
          var i :| 0 <= i < |args| && args[i].slot == Some(n);
          assert init[i] == args[i];
        }
      }
    }
  }

  /** The last argument carrying a slot number is one of the arguments, and
      no later argument carries that number. */
  lemma {:induction false} LastWithIsLast(args: seq<Arg>, n: int) returns (i: nat)
    requires LastWith(args, n).Some?
    ensures i < |args| && args[i] == Arg(Some(n), LastWith(args, n).value)
    ensures forall j :: i < j < |args| ==> args[j].slot != Some(n)
    decreases |args|
  {
    var last := |args| - 1;
    if args[last].slot == Some(n) {
      i := last;
    } else {
      var init := args[..last];
      assert LastWith(args, n) == LastWith(init, n);
      i := LastWithIsLast(init, n);
      assert args[i] == init[i];
      assert forall j :: i < j < last ==> args[j] == init[j];
    }
  }

  predicate StrictlyIncreasing(xs: seq<int>)
  {
    forall i, j :: 0 <= i < j < |xs| ==> xs[i] < xs[j]
  }

  /** The distinct slot numbers of a sorted entry list, ascending. */
  function DistinctIndices(es: seq<Entry>): (r: seq<int>)
    requires SortedByIndex(es)
    ensures StrictlyIncreasing(r)
    ensures |es| > 0 ==> |r| > 0 && r[0] == es[0].index
    ensures forall n :: n in r <==> exists i :: 0 <= i < |es| && es[i].index == n
    decreases |es|
  {
    if |es| == 0 then []
    else
      var rest := DistinctIndices(es[1..]);
      assert forall i :: 1 <= i < |es| ==> es[i] == es[1..][i - 1];
      if |es| > 1 && es[0].index == es[1].index then rest else [es[0].index] + rest
  }

  /** `sorted(input_dict.keys())`: the slot numbers that some argument carries, ascending. */
  function SortedKeys(args: seq<Arg>): (r: seq<int>)
    ensures StrictlyIncreasing(r)
    ensures forall n :: n in r <==> n in IndexDict(args)
  {
    var sorted := SortByIndex(Entries(args));
    var r := DistinctIndices(sorted);
    assert forall n :: n in r <==> n in IndexDict(args) by {
      forall n
        ensures n in r <==> n in IndexDict(args)
      {
        assert n in r <==> exists i :: 0 <= i < |sorted| && sorted[i].index == n;
        SortedKeysMember(args, sorted, n);
      }
    }
    r
  }

  lemma SortedKeysMember(args: seq<Arg>, sorted: seq<Entry>, n: int)
    requires sorted == SortByIndex(Entries(args))
    ensures (exists i :: 0 <= i < |sorted| && sorted[i].index == n) <==> n in IndexDict(args)
  {
    LastWithSome(args, n);
    if exists i :: 0 <= i < |sorted| && sorted[i].index == n {
      var es := Entries(args);
      var i :| 0 <= i < |sorted| && sorted[i].index == n;
      OrderedMember(sorted, es, i);
      EntriesMembers(args, sorted[i]);
    }
    if n in IndexDict(args) {
      var es := Entries(args);
      var i :| 0 <= i < |args| && args[i].slot == Some(n);
      var e := Entry(n, args[i].value);
      EntriesMembers(args, e);
      var j :| 0 <= j < |es| && es[j] == e;
      OrderedMember(es, sorted, j);
      var k :| 0 <= k < |sorted| && sorted[k] == e;
      assert sorted[k].index == n;
    }
  }

  /** Manual mode's source values: for each slot number carried by some
      argument, ascending, the value of the last argument carrying it. */
  function ManualValues(args: seq<Arg>): (r: seq<string>)
    ensures |r| == |SortedKeys(args)|
    ensures forall i :: 0 <= i < |r| ==> Some(r[i]) == LastWith(args, SortedKeys(args)[i])
  {
    var dict := IndexDict(args);
    var keys := SortedKeys(args);
    seq(|keys|, i requires 0 <= i < |keys| => dict[keys[i]])
  }

  /** The values before clean-up: in import mode the list spread over the
      slots; otherwise, whatever the payload, the last value given for each
      numbered slot, in ascending slot order. */
  function SourceValues(sep: string, payload: PayloadParse, imported: ImportArg,
                        kwargs: seq<(string, string)>): (r: seq<string>)
    ensures ImportMode(imported) ==> |r| == Min(|imported.items|, SlotCount(payload))
    ensures ImportMode(imported) ==> r == Distribute(imported.items, SlotCount(payload), sep)
    ensures !ImportMode(imported) ==> |r| == |SortedKeys(ReadArgs(kwargs))|
    ensures !ImportMode(imported) ==> forall i :: 0 <= i < |r| ==>
      Some(r[i]) == LastWith(ReadArgs(kwargs), SortedKeys(ReadArgs(kwargs))[i])
  {
    if ImportMode(imported) then Distribute(imported.items, SlotCount(payload), sep)
    else ManualValues(ReadArgs(kwargs))
  }

  /** Clean-up with trimming off: only commas are stripped from the ends. */
  function StripRaw(v: string): (r: string)
    ensures r != "" ==> r[0] != ',' && r[|r| - 1] != ','
    ensures r == "" <==> forall i :: 0 <= i < |v| ==> v[i] == ','
  {
    StripCommas(v)
  }

  /** Clean-up with trimming on: white space, then commas, then white space. */
  function StripTrimmed(v: string): (r: string)
    ensures r != "" ==> !IsPySpace(r[0]) && !IsPySpace(r[|r| - 1])
  {
    StripSpace(StripCommas(StripSpace(v)))
  }

  /** One value after clean-up: empty values are dropped; otherwise white
      space is stripped (when trimming), then commas, then white space again
      (when trimming); a value left empty is dropped. */
  function Clean(trim: bool, v: string): (r: Option<string>)
    ensures r.Some? ==> r.value != ""
    ensures !trim ==> (r.None? <==> forall i :: 0 <= i < |v| ==> v[i] == ',')
  {
    if v == "" then None
    else
      var t := if trim then StripTrimmed(v) else StripRaw(v);
      if t == "" then None else Some(t)
  }

  /** A kept value never starts or ends with a comma when trimming is off,
      nor with white space when trimming is on. */
  lemma CleanEnds(trim: bool, v: string)
    requires Clean(trim, v).Some?
    ensures var t := Clean(trim, v).value;
      if trim then !IsPySpace(t[0]) && !IsPySpace(t[|t| - 1])
      else t[0] != ',' && t[|t| - 1] != ','
  {
  }

  /** The cleaned values, in order, dropped ones left out. */
  function CollectValues(trim: bool, vals: seq<string>): (r: seq<string>)
    ensures |r| <= |vals|
    ensures forall i :: 0 <= i < |r| ==> r[i] != ""
    ensures r == [] <==> forall i :: 0 <= i < |vals| ==> Clean(trim, vals[i]).None?
  {
    if |vals| == 0 then []
    else
      var rest := CollectValues(trim, vals[1..]);
      assert forall i :: 1 <= i < |vals| ==> vals[i] == vals[1..][i - 1];
      match Clean(trim, vals[0])
      case Some(t) => [t] + rest
      case None => rest
  }

  /** A single value is kept as its cleaned form, or dropped. */
  lemma CollectValuesOne(trim: bool, v: string)
    ensures CollectValues(trim, [v]) == if Clean(trim, v).Some? then [Clean(trim, v).value] else []
  {
  }

  /** The first value is cleaned on its own, ahead of the rest. */
  lemma CollectValuesCons(trim: bool, v: string, rest: seq<string>)
    ensures CollectValues(trim, [v] + rest) == CollectValues(trim, [v]) + CollectValues(trim, rest)
  {
    var s := [v] + rest;
    assert s[0] == v && s[1..] == rest;
    CollectValuesOne(trim, v);
  }

  /** Cleaning a concatenation cleans each half: values are cleaned one by
      one and kept in order. */
  lemma {:induction false} CollectValuesConcat(trim: bool, a: seq<string>, b: seq<string>)
    ensures CollectValues(trim, a + b) == CollectValues(trim, a) + CollectValues(trim, b)
    decreases |a|
  {
    if |a| > 0 {
      assert a + b == [a[0]] + (a[1..] + b);
      assert a == [a[0]] + a[1..];
      CollectValuesCons(trim, a[0], a[1..] + b);
      CollectValuesCons(trim, a[0], a[1..]);
      CollectValuesConcat(trim, a[1..], b);
    } else {
      assert a + b == b;
    }
  }

  /** A value is kept exactly when it is the cleaned form of some source value. */
  lemma {:induction false} CollectValuesMembers(trim: bool, vals: seq<string>, w: string)
    ensures w in CollectValues(trim, vals) <==> exists i :: 0 <= i < |vals| && Clean(trim, vals[i]) == Some(w)
    decreases |vals|
  {
    if |vals| > 0 {
      var v, rest := vals[0], vals[1..];
      assert vals == [v] + rest;
      CollectValuesCons(trim, v, rest);
      CollectValuesOne(trim, v);
      CollectValuesMembers(trim, rest, w);
      if w in CollectValues(trim, rest) {
        var i :| 0 <= i < |rest| && Clean(trim, rest[i]) == Some(w);
        assert vals[i + 1] == rest[i];
      }
      if exists i :: 0 <= i < |vals| && Clean(trim, vals[i]) == Some(w) {
        var i :| 0 <= i < |vals| && Clean(trim, vals[i]) == Some(w);
        if i > 0 {
          assert rest[i - 1] == vals[i];
        }
      }
    }
  }

  function Collected(sep: string, trim: bool, payload: PayloadParse, imported: ImportArg,
                     kwargs: seq<(string, string)>): seq<string>
  {
    CollectValues(trim, SourceValues(sep, payload, imported, kwargs))
  }

  /** `process_text`: `join_string.join(collected)`, empty exactly when
      nothing survives the clean-up. */
  function ProcessText(sep: string, trim: bool, payload: PayloadParse, imported: ImportArg,
                       kwargs: seq<(string, string)>): (r: string)
    ensures r == "" <==> Collected(sep, trim, payload, imported, kwargs) == []
  {
    var collected := Collected(sep, trim, payload, imported, kwargs);
    JoinEmptyIff(sep, collected);
    Join(sep, collected)
  }

  /** A value the clean-up with trimming off keeps as it is. */
  predicate Plain(v: string)
  {
    v != "" && v[0] != ',' && v[|v| - 1] != ','
  }

  lemma PlainKept(v: string)
    requires Plain(v)
    ensures Clean(false, v) == Some(v)
  {
    assert StripCommas(v) == v;
  }

  /** Collecting values that the clean-up keeps as they are returns them all. */
  lemma {:induction false} CollectPlain(vals: seq<string>)
    requires forall i :: 0 <= i < |vals| ==> Plain(vals[i])
    ensures CollectValues(false, vals) == vals
    decreases |vals|
  {
    if |vals| > 0 {
      PlainKept(vals[0]);
      assert forall i :: 0 <= i < |vals[1..]| ==> vals[1..][i] == vals[i + 1];
      CollectPlain(vals[1..]);
    }
  }

  /** Import mode with trimming off gives back the imported list joined,
      whatever the slot count, when every item is non-empty and neither
      starts nor ends with a comma. */
  lemma ImportKeepsText(sep: string, payload: PayloadParse, items: seq<string>,
                        kwargs: seq<(string, string)>)
    requires |items| > 0
    requires forall i :: 0 <= i < |items| ==> Plain(items[i])
    ensures ProcessText(sep, false, payload, ImportList(items), kwargs) == Join(sep, items)
  {
    var slots := SlotCount(payload);
    var vals := Distribute(items, slots, sep);
    assert SourceValues(sep, payload, ImportList(items), kwargs) == vals;
    forall j | 0 <= j < |vals|
      ensures Plain(vals[j])
    {
      if j == slots - 1 {
        var tail := items[slots - 1..];
        assert forall i :: 0 <= i < |tail| ==> tail[i] == items[slots - 1 + i];
        JoinEnds(sep, tail);
      }
    }
    CollectPlain(vals);
    DistributeKeepsJoin(items, slots, sep);
  }
}

=== FILE: registered_joiner.dfy ===
/**
 The registered Text Joiner node (`TextJoinerNode` in `__init__.py`): it
 declares `text_1` … `text_25`, and `process_text` joins the non-empty
 `text_N` arguments in ascending order of N, optionally stripping white space.
 */
module RegisteredJoiner {
  import opened Wrappers
  import opened Strings
  import opened TextKeys

  const MaxSlots: nat := 25

  /** `INPUT_TYPES`: the two required settings, then 25 optional text slots
      whose names read back, by both the Python and the front-end reading,
      as the numbers 1 to 25 in order. */
  function DeclaredInputs(): (r: InputTypes)
    ensures r.required == ["join_string", "trim_whitespace"]
    ensures |r.optional| == MaxSlots
    ensures forall i :: 0 <= i < |r.optional| ==> PyTextIndex(r.optional[i]) == Some(i + 1)
    ensures forall i :: 0 <= i < |r.optional| ==> JsTextIndex(r.optional[i]) == Some(i + 1)
  {
    var optional := TextNames(1, MaxSlots);
    TextNamesIndex(1, optional);
    InputTypes(["join_string", "trim_whitespace"], optional)
  }

  /** One value after the node's clean-up: empty values are dropped; with
      trimming on, surrounding white space is stripped and a value that was
      all white space is dropped; with trimming off the value is kept as is. */
  function Clean(trim: bool, v: string): (r: Option<string>)
    ensures r.Some? ==> r.value != ""
    ensures !trim ==> r == (if v == "" then None else Some(v))
    ensures trim ==> (r.None? <==> forall i :: 0 <= i < |v| ==> IsPySpace(v[i]))
  {
    if v == "" then None
    else
      var t := if trim then StripSpace(v) else v;
      if t == "" then None else Some(t)
  }

  /** With trimming on, a kept value is a piece of the original whose ends
      are not white space. */
  lemma TrimmedEnds(v: string)
    requires Clean(true, v).Some?
    ensures var t := Clean(true, v).value;
      !IsPySpace(t[0]) && !IsPySpace(t[|t| - 1]) && Contains(v, t)
  {
  }

  /** The cleaned values of `es`, in order, with the dropped ones left out. */
  function Collect(trim: bool, es: seq<Entry>): (r: seq<string>)
    ensures |r| <= |es|
    ensures forall i :: 0 <= i < |r| ==> r[i] != ""
    ensures r == [] <==> forall i :: 0 <= i < |es| ==> Clean(trim, es[i].value).None?
  {
    if |es| == 0 then []
    else
      var rest := Collect(trim, es[1..]);
      assert forall i :: 1 <= i < |es| ==> es[i] == es[1..][i - 1];
      match Clean(trim, es[0].value)
      case Some(t) => [t] + rest
      case None => rest
  }

  lemma {:induction false} CollectConcat(trim: bool, a: seq<Entry>, b: seq<Entry>)
    ensures Collect(trim, a + b) == Collect(trim, a) + Collect(trim, b)
    decreases |a|
  {
    if |a| > 0 {
      assert (a + b)[0] == a[0];
      assert (a + b)[1..] == a[1..] + b;
      CollectConcat(trim, a[1..], b);
      match Clean(trim, a[0].value)
      case Some(t) =>
        assert Collect(trim, a + b) == [t] + (Collect(trim, a[1..]) + Collect(trim, b));
      case None =>
    } else {
      assert a + b == b;
    }
  }

  /** The values the node joins: the cleaned `text_N` arguments in ascending
      order of N (arguments with equal N in call order). */
  function Collected(trim: bool, kwargs: seq<(string, string)>): seq<string>
  {
    Collect(trim, SortByIndex(Entries(ReadArgs(kwargs))))
  }

  /** `process_text`: `join_string.join(collected)`. The result is empty
      exactly when no argument survives the clean-up. */
  function ProcessText(joinString: string, trim: bool, kwargs: seq<(string, string)>): (r: string)
    ensures r == "" <==> Collected(trim, kwargs) == []
  {
    var collected := Collected(trim, kwargs);
    JoinEmptyIff(joinString, collected);
    Join(joinString, collected)
  }

  /** Arguments whose names carry no integer slot number are ignored,
      wherever they appear among the arguments. */
  lemma IgnoresUnnumbered(trim: bool, before: seq<(string, string)>,
                          key: string, value: string, after: seq<(string, string)>)
    requires PyTextIndex(key).None?
    ensures Collected(trim, before + [(key, value)] + after) == Collected(trim, before + after)
  {
    var b := ReadArgs(before);
    var a := ReadArgs(after);
    var k := ReadArgs([(key, value)]);
    ReadArgsConcat(before + [(key, value)], after);
    ReadArgsConcat(before, [(key, value)]);
    ReadArgsConcat(before, after);
    EntriesConcat(b + k, a);
    EntriesConcat(b, k);
    EntriesConcat(b, a);
    assert Entries(k) == [];
    assert Entries(b + k) == Entries(b);
  }

  /** Slot order, not argument order, decides the output: when every slot
      number in `high` exceeds every slot number in `low`, passing `high`
      first still gives the `low` values first. */
  lemma SlotOrderWins(trim: bool, high: seq<(string, string)>, low: seq<(string, string)>)
    requires forall e, f :: e in Entries(ReadArgs(low)) && f in Entries(ReadArgs(high)) ==> e.index < f.index
    ensures Collected(trim, high + low) == Collected(trim, low) + Collected(trim, high)
  {
    var el := Entries(ReadArgs(low));
    var eh := Entries(ReadArgs(high));
    var sl := SortByIndex(el);
    var sh := SortByIndex(eh);
    ReadArgsConcat(high, low);
    EntriesConcat(ReadArgs(high), ReadArgs(low));
    SortedConcat(sl, el, sh, eh);
    SameGroups(sl, el, sh, eh);
    SortedUnique(SortByIndex(eh + el), sl + sh);
    CollectConcat(trim, sl, sh);
  }

  /** Two sorted lists whose entries are ordered across them concatenate to a sorted list. */
  lemma SortedConcat(sl: seq<Entry>, low: seq<Entry>, sh: seq<Entry>, high: seq<Entry>)
    requires SortedByIndex(sl) && SortedByIndex(sh)
    requires forall k :: WithIndex(sl, k) == WithIndex(low, k)
    requires forall k :: WithIndex(sh, k) == WithIndex(high, k)
    requires forall e, f :: e in low && f in high ==> e.index < f.index
    ensures SortedByIndex(sl + sh)
  {
    forall i, j | 0 <= i < j < |sl + sh|
      ensures (sl + sh)[i].index <= (sl + sh)[j].index
    {
      if i < |sl| && j >= |sl| {
        OrderedMember(sl, low, i);
        OrderedMember(sh, high, j - |sl|);
      }
    }
  }

  /** With the numbers of `low` all below those of `high`, no number has
      entries on both sides, so the order of the two halves does not matter
      to any per-number sub-list. */
  lemma SameGroups(sl: seq<Entry>, low: seq<Entry>, sh: seq<Entry>, high: seq<Entry>)
    requires forall k :: WithIndex(sl, k) == WithIndex(low, k)
    requires forall k :: WithIndex(sh, k) == WithIndex(high, k)
    requires forall e, f :: e in low && f in high ==> e.index < f.index
    ensures forall k :: WithIndex(sl + sh, k) == WithIndex(high + low, k)
  {
    forall k
      ensures WithIndex(sl + sh, k) == WithIndex(high + low, k)
    {
      WithIndexConcat(sl, sh, k);
      WithIndexConcat(high, low, k);
      if WithIndex(low, k) != [] && WithIndex(high, k) != [] {
        WithIndexMember(low, k, WithIndex(low, k)[0]);
        WithIndexMember(high, k, WithIndex(high, k)[0]);
      }
    }
  }
}

=== FILE: round_trip.dfy ===
/**
 How the package's nodes compose in a workflow: a Text Splitter fed the
 output of a Text Joiner with the same one-character separator gives the
 joined values back, and a Text Joiner fed a split list rebuilds the text.
 */
module RoundTrip {
  import opened Wrappers
  import opened Strings
  import Splitter
  import RegisteredJoiner
  import PayloadJoiner

  /** Joining with a one-character separator that no kept value contains,
      then splitting on it, gives exactly the kept values in slot order
      (none at all when every box was empty). */
  lemma JoinThenSplit(sep: string, trim: bool, kwargs: seq<(string, string)>)
    requires |sep| == 1
    requires var vals := RegisteredJoiner.Collected(trim, kwargs);
      forall i :: 0 <= i < |vals| ==> !Contains(vals[i], sep)
    ensures Splitter.SplitText(RegisteredJoiner.ProcessText(sep, trim, kwargs), sep)
         == Ok(RegisteredJoiner.Collected(trim, kwargs))
  {
    var vals := RegisteredJoiner.Collected(trim, kwargs);
    var text := RegisteredJoiner.ProcessText(sep, trim, kwargs);
    if vals == [] {
      assert text == "";
    } else {
      assert text == Join(sep, vals);
      assert vals[0] != "";
      Splitter.SplitJoined(vals, sep);
    }
  }

  /** Splitting a text on a one-character delimiter and handing the parts
      to the payload-aware joiner as its import list, with the same
      separator, rebuilds the text when no part is empty or has a comma at
      either end. */
  lemma SplitThenImport(text: string, sep: string, payload: PayloadJoiner.PayloadParse,
                        kwargs: seq<(string, string)>)
    requires |sep| == 1 && text != ""
    requires Splitter.SplitText(text, sep).Ok?
    requires var parts := Splitter.SplitText(text, sep).value;
      forall i :: 0 <= i < |parts| ==> PayloadJoiner.Plain(parts[i])
    ensures var parts := Splitter.SplitText(text, sep).value;
      PayloadJoiner.ProcessText(sep, false, payload, PayloadJoiner.ImportList(parts), kwargs) == text
  {
    var parts := Splitter.SplitText(text, sep).value;
    assert Splitter.EffectiveDelimiter(sep) == sep;
    JoinEmptyIff(sep, parts);
    PayloadJoiner.ImportKeepsText(sep, payload, parts, kwargs);
  }
}

=== FILE: splitter.dfy ===
/**
 The Text Splitter node (`TextSplitterNode.split_text` in
 `nodes/text_splitter.py`): empty text gives no parts, a delimiter typed as
 the two characters backslash and `n` means a newline, and otherwise the
 text is cut with Python's `str.split`, which rejects an empty separator.
 */
module Splitter {
  import opened Wrappers
  import opened Strings

  /** Python's `ValueError: empty separator`. */
  datatype SplitError = EmptySeparator

  /** The two characters backslash and `n`, as typed into the delimiter box. */
  const EscapedNewline: string := ['\\', 'n']

  /** The delimiter actually used: the escaped newline means a real newline. */
  function EffectiveDelimiter(delimiter: string): (d: string)
    ensures delimiter == EscapedNewline ==> d == "\n"
    ensures delimiter != EscapedNewline ==> d == delimiter
  {
    if delimiter == EscapedNewline then "\n" else delimiter
  }

  /** `split_text`: no parts for empty text; an error for an empty delimiter;
      otherwise the parts, which join back to the text, contain no delimiter
      and are cut at the leftmost non-overlapping occurrences. */
  function SplitText(text: string, delimiter: string): (r: Result<seq<string>, SplitError>)
    ensures text == "" ==> r == Ok([])
    ensures text != "" && EffectiveDelimiter(delimiter) == "" ==> r == Err(EmptySeparator)
    ensures text != "" && EffectiveDelimiter(delimiter) != "" ==> r.Ok?
    ensures r.Ok? && text != "" ==> Join(EffectiveDelimiter(delimiter), r.value) == text
    ensures r.Ok? && text != "" ==> Greedy(r.value, EffectiveDelimiter(delimiter))
    ensures r.Ok? && text != "" ==> forall i :: 0 <= i < |r.value| ==> !Contains(r.value[i], EffectiveDelimiter(delimiter))
  {
    if text == "" then Ok([])
    else
      var d := EffectiveDelimiter(delimiter);
      if d == "" then Err(EmptySeparator)
      else
        var parts := Split(text, d);
        JoinSplit(text, d);
        SplitIsGreedy(text, d);
        assert forall i :: 0 <= i < |parts| ==> !Contains(parts[i], d) by {
          forall i | 0 <= i < |parts| {
            GreedyPartsLackSeparator(parts, d, i);
          }
        }
        Ok(parts)
  }

  /** Splitting a joined list by a one-character delimiter recovers the list,
      provided no part contains the delimiter and the list is not one empty
      part (whose join, the empty text, splits into no parts). */
  lemma SplitJoined(parts: seq<string>, sep: string)
    requires |sep| == 1
    requires parts != [""]
    requires forall i :: 0 <= i < |parts| ==> !Contains(parts[i], sep)
    ensures SplitText(Join(sep, parts), sep) == Ok(parts)
  {
    var text := Join(sep, parts);
    assert EffectiveDelimiter(sep) == sep;
    if parts != [] {
      if |parts| == 1 {
        assert text == parts[0] != "";
      } else {
        assert text == parts[0] + sep + Join(sep, parts[1..]);
      }
      SingleCharGreedy(parts, sep);
      SplitJoin(parts, sep);
    }
  }
}

=== FILE: strings.dfy ===
/**
 Character-sequence operations the nodes rely on: Python's `sep.join`,
 `str.split(sep)`, `str.strip()`/`str.strip(',')`, substring containment and an
 ASCII lower-casing standing in for `toLowerCase`.
 */
module Strings {
  import opened Wrappers

  /** Python's `sep.join(parts)`: `sep` between consecutive parts. */
  function Join(sep: string, parts: seq<string>): string
  {
    if |parts| == 0 then ""
    else if |parts| == 1 then parts[0]
    else parts[0] + sep + Join(sep, parts[1..])
  }

  lemma {:induction false} JoinConcat(sep: string, a: seq<string>, b: seq<string>)
    requires |a| > 0 && |b| > 0
    ensures Join(sep, a + b) == Join(sep, a) + sep + Join(sep, b)
    decreases |a|
  {
    if |a| == 1 {
      assert (a + b)[1..] == b;
    } else {
      assert (a + b)[1..] == a[1..] + b;
      JoinConcat(sep, a[1..], b);
    }
  }

  /** Joining is empty exactly when there is nothing to join or all there is is one empty part. */
  lemma {:induction false} JoinNonEmpty(sep: string, parts: seq<string>)
    requires exists i :: 0 <= i < |parts| && parts[i] != ""
    ensures Join(sep, parts) != ""
    decreases |parts|
  {
    if |parts| > 1 && parts[0] == "" {
      var i :| 0 <= i < |parts| && parts[i] != "";
      assert parts[1..][i - 1] == parts[i];
      JoinNonEmpty(sep, parts[1..]);
    }
  }

  /** Joining non-empty parts gives the empty text only when there are none. */
  lemma JoinEmptyIff(sep: string, parts: seq<string>)
    requires forall i :: 0 <= i < |parts| ==> parts[i] != ""
    ensures Join(sep, parts) == "" <==> parts == []
  {
    if parts != [] {
      assert parts[0] != "";
      JoinNonEmpty(sep, parts);
    }
  }

  /** A join of non-empty parts starts with the first part's first
      character and ends with the last part's last. */
  lemma {:induction false} JoinEnds(sep: string, parts: seq<string>)
    requires |parts| > 0
    requires forall i :: 0 <= i < |parts| ==> parts[i] != ""
    ensures var j := Join(sep, parts); var last := parts[|parts| - 1];
      |j| > 0 && j[0] == parts[0][0] && j[|j| - 1] == last[|last| - 1]
    decreases |parts|
  {
    if |parts| > 1 {
      var rest := parts[1..];
      assert rest[|rest| - 1] == parts[|parts| - 1];
      assert forall i :: 0 <= i < |rest| ==> rest[i] == parts[i + 1];
      JoinEnds(sep, rest);
    }
  }

  /** `pat` occurs in `s` starting at index `i`. */
  predicate OccursAt(s: string, pat: string, i: int)
  {
    0 <= i && i + |pat| <= |s| && s[i..i + |pat|] == pat
  }

  /** Python's `pat in s` / JavaScript's `s.includes(pat)`. */
  predicate Contains(s: string, pat: string)
  {
    exists i :: 0 <= i <= |s| && OccursAt(s, pat, i)
  }

  lemma ContainsTrans(a: string, b: string, c: string)
    requires Contains(a, b) && Contains(b, c)
    ensures Contains(a, c)
  {
    var i :| 0 <= i <= |a| && OccursAt(a, b, i);
    var j :| 0 <= j <= |b| && OccursAt(b, c, j);
    assert forall k :: 0 <= k < |c| ==> a[i + j + k] == b[j + k] == c[k];
    assert a[i + j..i + j + |c|] == c;
    assert OccursAt(a, c, i + j);
  }

  /** Leftmost occurrence of `pat` in `s` at or after `from`. */
  function FindFrom(s: string, pat: string, from: nat): (r: Option<nat>)
    ensures r.Some? ==> from <= r.value && OccursAt(s, pat, r.value)
    ensures r.Some? ==> forall k :: from <= k < r.value ==> !OccursAt(s, pat, k)
    ensures r.None? ==> forall k :: from <= k ==> !OccursAt(s, pat, k)
    decreases |s| - from
  {
    if from + |pat| > |s| then None
    else if s[from..from + |pat|] == pat then Some(from)
    else FindFrom(s, pat, from + 1)
  }

  /** The leftmost-match characterisation pins FindFrom down. */
  lemma FindFromIs(s: string, pat: string, j: nat)
    requires OccursAt(s, pat, j)
    requires forall k :: 0 <= k < j ==> !OccursAt(s, pat, k)
    ensures FindFrom(s, pat, 0) == Some(j)
  {
  }

  /** Python's `s.split(sep)` for a non-empty separator: cut at every
      leftmost, non-overlapping occurrence of `sep`. */
  function Split(s: string, sep: string): seq<string>
    requires |sep| > 0
    decreases |s|
  {
    match FindFrom(s, sep, 0)
    case None => [s]
    case Some(i) => [s[..i]] + Split(s[i + |sep|..], sep)
  }

  /** `p` followed by `sep` holds no occurrence of `sep` starting inside `p`:
      so the first `sep` after `p` is the one that follows it. */
  predicate NoEarlyMatch(p: string, sep: string)
  {
    forall j :: 0 <= j < |p| ==> !OccursAt(p + sep, sep, j)
  }

  /** The shape of every list `Split` produces: at least one part, every part
      but the last is ended by the first occurrence of `sep`, and the last
      part holds no `sep` at all. */
  predicate Greedy(parts: seq<string>, sep: string)
    decreases |parts|
  {
    && |parts| > 0
    && if |parts| == 1 then !Contains(parts[0], sep)
       else NoEarlyMatch(parts[0], sep) && Greedy(parts[1..], sep)
  }

  /** Splitting then joining with the same separator gives back the text. */
  lemma {:induction false} JoinSplit(s: string, sep: string)
    requires |sep| > 0
    ensures Join(sep, Split(s, sep)) == s
    decreases |s|
  {
    match FindFrom(s, sep, 0)
    case None =>
    case Some(i) =>
      var rest := s[i + |sep|..];
      JoinSplit(rest, sep);
      var tail := Split(rest, sep);
      assert Split(s, sep) == [s[..i]] + tail;
      assert ([s[..i]] + tail)[1..] == tail;
      assert s == s[..i] + sep + rest;
  }

  /** The part before the first separator has no early match. */
  lemma FirstPartNoEarlyMatch(s: string, sep: string, i: nat)
    requires |sep| > 0 && FindFrom(s, sep, 0) == Some(i)
    ensures NoEarlyMatch(s[..i], sep)
  {
    var head := s[..i] + sep;
    assert head == s[..i + |sep|];
    forall j | 0 <= j < i
      ensures !OccursAt(head, sep, j)
    {
      assert !OccursAt(s, sep, j);
      if j + |sep| <= |head| {
        assert head[j..j + |sep|] == s[j..j + |sep|];
      }
    }
  }

  /** Every list `Split` produces has the greedy shape. */
  lemma {:induction false} SplitIsGreedy(s: string, sep: string)
    requires |sep| > 0
    ensures Greedy(Split(s, sep), sep)
    decreases |s|
  {
    match FindFrom(s, sep, 0)
    case None =>
    case Some(i) =>
      var rest := s[i + |sep|..];
      SplitIsGreedy(rest, sep);
      FirstPartNoEarlyMatch(s, sep, i);
      var tail := Split(rest, sep);
      var parts := [s[..i]] + tail;
      assert Split(s, sep) == parts;
      assert parts[1..] == tail;
  }

  /** After a part with no early match, the first separator is the one that follows it. */
  lemma FirstSeparatorAfter(p: string, sep: string, rest: string)
    requires NoEarlyMatch(p, sep)
    ensures FindFrom(p + sep + rest, sep, 0) == Some(|p|)
  {
    var s := p + sep + rest;
    assert s[|p|..|p| + |sep|] == sep;
    forall k | 0 <= k < |p|
      ensures !OccursAt(s, sep, k)
    {
      if OccursAt(s, sep, k) {
        assert (p + sep)[k..k + |sep|] == s[k..k + |sep|];
        assert OccursAt(p + sep, sep, k);
      }
    }
    FindFromIs(s, sep, |p|);
  }

  /** One step of `Split` on a part with no early match, its separator and the rest. */
  lemma SplitStep(p: string, sep: string, rest: string)
    requires |sep| > 0 && NoEarlyMatch(p, sep)
    ensures Split(p + sep + rest, sep) == [p] + Split(rest, sep)
  {
    var s := p + sep + rest;
    FirstSeparatorAfter(p, sep, rest);
    assert s[|p| + |sep|..] == rest;
    assert s[..|p|] == p;
  }

  /** Splitting a join of greedy-shaped parts recovers the parts: the greedy
      shape is exactly what `Split` needs to cut at the joins. */
  lemma {:induction false} SplitJoin(parts: seq<string>, sep: string)
    requires |sep| > 0
    requires Greedy(parts, sep)
    ensures Split(Join(sep, parts), sep) == parts
    decreases |parts|
  {
    if |parts| == 1 {
      assert FindFrom(parts[0], sep, 0).None?;
    } else {
      var tail := parts[1..];
      assert Join(sep, parts) == parts[0] + sep + Join(sep, tail);
      SplitStep(parts[0], sep, Join(sep, tail));
      SplitJoin(tail, sep);
      assert parts == [parts[0]] + tail;
    }
  }

  /** A part with no early match does not contain the separator. */
  lemma NoEarlyMatchLacks(p: string, sep: string)
    requires |sep| > 0 && NoEarlyMatch(p, sep)
    ensures !Contains(p, sep)
  {
    forall k | 0 <= k <= |p|
      ensures !OccursAt(p, sep, k)
    {
      if k + |sep| <= |p| {
        assert !OccursAt(p + sep, sep, k);
        assert (p + sep)[k..k + |sep|] == p[k..k + |sep|];
      }
    }
  }

  /** No part of a greedy-shaped list contains the separator. */
  lemma {:induction false} GreedyPartsLackSeparator(parts: seq<string>, sep: string, i: int)
    requires |sep| > 0
    requires Greedy(parts, sep)
    requires 0 <= i < |parts|
    ensures !Contains(parts[i], sep)
    decreases i
  {
    if |parts| > 1 {
      if i == 0 {
        NoEarlyMatchLacks(parts[0], sep);
      } else {
        GreedyPartsLackSeparator(parts[1..], sep, i - 1);
      }
    }
  }

  /** For a one-character separator (the usual newline) the greedy shape is
      simply "no part contains the separator". */
  lemma {:induction false} SingleCharGreedy(parts: seq<string>, sep: string)
    requires |sep| == 1
    requires |parts| > 0
    requires forall i :: 0 <= i < |parts| ==> !Contains(parts[i], sep)
    ensures Greedy(parts, sep)
    decreases |parts|
  {
    if |parts| > 1 {
      var p := parts[0];
      assert !Contains(p, sep);
      forall j | 0 <= j < |p|
        ensures !OccursAt(p + sep, sep, j)
      {
        assert !OccursAt(p, sep, j);
        assert p[j..j + 1] == (p + sep)[j..j + 1];
      }
      assert forall i :: 0 <= i < |parts[1..]| ==> parts[1..][i] == parts[i + 1];
      SingleCharGreedy(parts[1..], sep);
    }
  }

  /** Drop the longest prefix of characters satisfying `drop`. */
  function TrimStart(s: string, drop: char -> bool): (r: string)
    ensures |r| <= |s| && r == s[|s| - |r|..]
    ensures forall i :: 0 <= i < |s| - |r| ==> drop(s[i])
    ensures |r| > 0 ==> !drop(r[0])
    decreases |s|
  {
    if |s| > 0 && drop(s[0]) then TrimStart(s[1..], drop) else s
  }

  /** The first position at or after `i` whose character is kept. */
  function SkipFrom(s: string, drop: char -> bool, i: nat): (n: nat)
    requires i <= |s|
    ensures i <= n <= |s|
    ensures forall k :: i <= k < n ==> drop(s[k])
    ensures n < |s| ==> !drop(s[n])
    decreases |s| - i
  {
    if i < |s| && drop(s[i]) then SkipFrom(s, drop, i + 1) else i
  }

  /** The end of the kept text: going back from `j` no further than `lo`,
      the position just after the last kept character. */
  function SkipBack(s: string, drop: char -> bool, lo: nat, j: nat): (n: nat)
    requires lo <= j <= |s|
    ensures lo <= n <= j
    ensures forall k :: n <= k < j ==> drop(s[k])
    ensures n > lo ==> !drop(s[n - 1])
    decreases j
  {
    if j > lo && drop(s[j - 1]) then SkipBack(s, drop, lo, j - 1) else j
  }

  /** `r` is `s` with a run of dropped characters removed from the front,
      `a` of them, and a run removed from the back. */
  predicate StrippedAt(s: string, drop: char -> bool, r: string, a: nat)
  {
    && a + |r| <= |s|
    && r == s[a..a + |r|]
    && (forall k :: 0 <= k < a ==> drop(s[k]))
    && (forall k :: a + |r| <= k < |s| ==> drop(s[k]))
  }

  /** Python's `s.strip(chars)`: both ends of the result are kept characters,
      the result is empty only when every character is dropped, and a text
      whose ends are already kept characters comes back unchanged;
      StripRemovesOnlyEnds says what is removed. */
  function Strip(s: string, drop: char -> bool): (r: string)
    ensures |r| <= |s|
    ensures |r| > 0 ==> !drop(r[0]) && !drop(r[|r| - 1])
    ensures r == "" <==> forall i :: 0 <= i < |s| ==> drop(s[i])
    ensures |s| > 0 && !drop(s[0]) && !drop(s[|s| - 1]) ==> r == s
    ensures Contains(s, r)
  {
    var a := SkipFrom(s, drop, 0);
    var b := SkipBack(s, drop, a, |s|);
    assert OccursAt(s, s[a..b], a);
    assert a < b ==> s[a..b][0] == s[a] && s[a..b][b - a - 1] == s[b - 1];
    s[a..b]
  }

  /** Stripping removes nothing but dropped characters, and only from the
      two ends: the result is `s` less a dropped prefix and a dropped suffix. */
  lemma StripRemovesOnlyEnds(s: string, drop: char -> bool)
    ensures exists a :: StrippedAt(s, drop, Strip(s, drop), a)
  {
    var a := SkipFrom(s, drop, 0);
    var b := SkipBack(s, drop, a, |s|);
    assert Strip(s, drop) == s[a..b];
    assert StrippedAt(s, drop, s[a..b], a);
  }

  /** Characters Python's `str.isspace()` accepts (and `str.strip()` removes),
      by code point. */
  predicate IsPySpace(c: char)
  {
    var n := c as int;
    (0x09 <= n <= 0x0D) || (0x1C <= n <= 0x20) || n == 0x85 || n == 0xA0
    || n == 0x1680 || (0x2000 <= n <= 0x200A) || n == 0x2028 || n == 0x2029
    || n == 0x202F || n == 0x205F || n == 0x3000
  }

  /** Characters JavaScript treats as white space or line terminators (what
      `parseInt` skips before the number), by code point. */
  predicate IsJsSpace(c: char)
  {
    var n := c as int;
    (0x09 <= n <= 0x0D) || n == 0x20 || n == 0xA0 || n == 0x1680
    || (0x2000 <= n <= 0x200A) || n == 0x2028 || n == 0x2029
    || n == 0x202F || n == 0x205F || n == 0x3000 || n == 0xFEFF
  }

  /** Python's `s.strip()`. */
  function StripSpace(s: string): string
  {
    Strip(s, IsPySpace)
  }

  predicate IsComma(c: char)
  {
    c == ','
  }

  /** Python's `s.strip(',')`. */
  function StripCommas(s: string): string
  {
    Strip(s, IsComma)
  }

  /** Lower-cases ASCII letters and leaves every other character alone. */
  function LowerChar(c: char): char
  {
    if 'A' <= c <= 'Z' then (c as int + 32) as char else c
  }

  /** ASCII lower-casing: every capital letter becomes its small letter,
      every other character is kept, so no capital is left. */
  function Lower(s: string): (r: string)
    ensures |r| == |s|
    ensures forall i :: 0 <= i < |r| ==> !('A' <= r[i] <= 'Z')
    ensures forall i :: 0 <= i < |s| && !('A' <= s[i] <= 'Z') ==> r[i] == s[i]
    ensures forall i :: 0 <= i < |s| && 'A' <= s[i] <= 'Z' ==> r[i] as int == s[i] as int + 32
  {
    seq(|s|, i requires 0 <= i < |s| => LowerChar(s[i]))
  }

  /** Lower-casing twice is lower-casing once. */
  lemma LowerIdempotent(s: string)
    ensures Lower(Lower(s)) == Lower(s)
  {
  }

  function StartsWith(s: string, prefix: string): bool
  {
    |prefix| <= |s| && s[..|prefix|] == prefix
  }
}

=== FILE: text_keys.dfy ===
/**
 The `text_N` naming convention shared by the Python nodes and the front end:
 building a slot name from its number, reading the number back out of a name
 (Python keeps only whole-integer suffixes, JavaScript any digit prefix), and
 the stable sort by that number the registered joiner performs.
 */
module TextKeys {
  import opened Wrappers
  import opened Strings
  import opened Decimal

  const TextPrefix: string := "text_"

  /** The slot name for number `n`: `f"text_{n}"` / `` `text_${n}` ``. */
  function TextName(n: nat): string
  {
    TextPrefix + NatToString(n)
  }

  /** The names of `count` consecutive slots starting at number `first`. */
  function TextNames(first: nat, count: nat): (r: seq<string>)
    ensures |r| == count
    ensures forall i :: 0 <= i < count ==> r[i] == TextName(first + i)
  {
    seq(count, i requires 0 <= i < count => TextName(first + i))
  }

  /** Consecutive slot names read back as their numbers on both sides. */
  lemma TextNamesIndex(first: nat, r: seq<string>)
    requires forall i :: 0 <= i < |r| ==> r[i] == TextName(first + i)
    ensures forall i :: 0 <= i < |r| ==> PyTextIndex(r[i]) == Some(first + i) && JsTextIndex(r[i]) == Some(first + i)
  {
    forall i | 0 <= i < |r|
      ensures PyTextIndex(r[i]) == Some(first + i) && JsTextIndex(r[i]) == Some(first + i)
    {
      TextNameIndex(first + i);
    }
  }

  /** The characters before the first underscore. */
  function UpToUnderscore(s: string): (r: string)
    ensures |r| <= |s| && r == s[..|r|]
    ensures forall i :: 0 <= i < |r| ==> r[i] != '_'
    ensures |r| < |s| ==> s[|r|] == '_'
    decreases |s|
  {
    if |s| == 0 || s[0] == '_' then "" else [s[0]] + UpToUnderscore(s[1..])
  }

  /** `name.split("_")[1]` for a name that starts with `text_`: the text
      between the first and the second underscore (or the end). */
  function IndexSegment(name: string): string
    requires StartsWith(name, TextPrefix)
  {
    UpToUnderscore(name[|TextPrefix|..])
  }

  /** The slot number the Python nodes read from a keyword-argument name:
      `k.startswith("text_")` and `int(k.split("_")[1])` succeeds. */
  function PyTextIndex(key: string): Option<int>
  {
    if StartsWith(key, TextPrefix) then PyInt(IndexSegment(key)) else None
  }

  /** The slot number the front end reads from a widget name:
      `name.startsWith("text_")` and `parseInt(name.split("_")[1])` is not `NaN`. */
  function JsTextIndex(name: string): Option<int>
  {
    if StartsWith(name, TextPrefix) then JsParseInt(IndexSegment(name)) else None
  }

  /** Names built from a number read back as that number on both sides. */
  lemma TextNameIndex(n: nat)
    ensures PyTextIndex(TextName(n)) == Some(n)
    ensures JsTextIndex(TextName(n)) == Some(n)
  {
    var name := TextName(n);
    assert name[..|TextPrefix|] == TextPrefix;
    assert name[|TextPrefix|..] == NatToString(n);
    UpToUnderscoreOfDigits(NatToString(n));
    ParsePrinted(n);
  }

  lemma {:induction false} UpToUnderscoreOfDigits(s: string)
    requires AllDigits(s)
    ensures UpToUnderscore(s) == s
    decreases |s|
  {
    if |s| > 0 {
      UpToUnderscoreOfDigits(s[1..]);
    }
  }

  /** Names for different numbers differ. */
  lemma TextNameInjective(m: nat, n: nat)
    requires TextName(m) == TextName(n)
    ensures m == n
  {
    TextNameIndex(m);
    TextNameIndex(n);
  }

  /** A node's declared inputs: required names, then optional names, in order. */
  datatype InputTypes = InputTypes(required: seq<string>, optional: seq<string>)

  /** A keyword argument whose name carried a slot number. */
  datatype Entry = Entry(index: int, value: string)

  /** A keyword argument whose name has been read by Python's rule. */
  datatype Arg = Arg(slot: Option<int>, value: string)

  /** The keyword arguments, in call order, with their names read. */
  function ReadArgs(kwargs: seq<(string, string)>): (r: seq<Arg>)
    ensures |r| == |kwargs|
    ensures forall i :: 0 <= i < |r| ==> r[i] == Arg(PyTextIndex(kwargs[i].0), kwargs[i].1)
  {
    seq(|kwargs|, i requires 0 <= i < |kwargs| => Arg(PyTextIndex(kwargs[i].0), kwargs[i].1))
  }

  lemma ReadArgsConcat(a: seq<(string, string)>, b: seq<(string, string)>)
    ensures ReadArgs(a + b) == ReadArgs(a) + ReadArgs(b)
  {
  }

  /** The arguments whose names carry a slot number, in call order, tagged
      with that number. */
  function Entries(args: seq<Arg>): (r: seq<Entry>)
    ensures |r| <= |args|
  {
    if |args| == 0 then []
    else
      var rest := Entries(args[1..]);
      match args[0].slot
      case Some(n) => [Entry(n, args[0].value)] + rest
      case None => rest
  }

  /** Exactly the arguments with a readable slot number become entries. */
  lemma {:induction false} EntriesMembers(args: seq<Arg>, e: Entry)
    ensures e in Entries(args) <==>
      exists i :: 0 <= i < |args| && args[i] == Arg(Some(e.index), e.value)
    decreases |args|
  {
    if |args| > 0 {
      EntriesMembers(args[1..], e);
      if e in Entries(args[1..]) {
        var i :| 0 <= i < |args[1..]| && args[1..][i] == Arg(Some(e.index), e.value);
        assert args[i + 1] == args[1..][i];
      }
      if exists i :: 0 <= i < |args| && args[i] == Arg(Some(e.index), e.value) {
        var i :| 0 <= i < |args| && args[i] == Arg(Some(e.index), e.value);
        if i > 0 {
          assert args[1..][i - 1] == args[i];
        }
      }
    }
  }

  predicate SortedByIndex(es: seq<Entry>)
  {
    forall i, j :: 0 <= i < j < |es| ==> es[i].index <= es[j].index
  }

  /** The entries carrying slot number `k`, in their order in `es`. */
  function WithIndex(es: seq<Entry>, k: int): seq<Entry>
  {
    if |es| == 0 then []
    else (if es[0].index == k then [es[0]] else []) + WithIndex(es[1..], k)
  }

  /** Insert `e` before the first entry whose number is not smaller. */
  function Insert(e: Entry, s: seq<Entry>): (r: seq<Entry>)
    requires SortedByIndex(s)
    ensures SortedByIndex(r)
    ensures forall x :: x in r ==> x == e || x in s
    decreases |s|
  {
    if |s| == 0 then [e]
    else if e.index <= s[0].index then [e] + s
    else
      var t := Insert(e, s[1..]);
      assert forall x :: x in s[1..] ==> s[0].index <= x.index;
      [s[0]] + t
  }

  /** Inserting `e` adds it in front of the entries that share its number. */
  lemma {:induction false} InsertWithIndex(e: Entry, s: seq<Entry>, k: int)
    requires SortedByIndex(s)
    ensures WithIndex(Insert(e, s), k) == (if e.index == k then [e] else []) + WithIndex(s, k)
    decreases |s|
  {
    var he := if e.index == k then [e] else [];
    if |s| == 0 {
      assert Insert(e, s) == [e];
      assert WithIndex([e], k) == he + WithIndex([e][1..], k);
    } else if e.index <= s[0].index {
      var r := [e] + s;
      assert Insert(e, s) == r;
      assert r[0] == e && r[1..] == s;
      assert WithIndex(r, k) == he + WithIndex(s, k);
    } else {
      var t := Insert(e, s[1..]);
      var r := [s[0]] + t;
      var h0 := if s[0].index == k then [s[0]] else [];
      assert Insert(e, s) == r;
      assert r[0] == s[0] && r[1..] == t;
      InsertWithIndex(e, s[1..], k);
      assert WithIndex(r, k) == h0 + (he + WithIndex(s[1..], k));
      assert h0 == [] || he == [];
      assert WithIndex(s, k) == h0 + WithIndex(s[1..], k);
      assert h0 + (he + WithIndex(s[1..], k)) == he + (h0 + WithIndex(s[1..], k));
    }
  }

  /** Python's `list.sort(key=...)` by slot number: stable, so entries with
      equal numbers keep their call order (and the result is a permutation). */
  function SortByIndex(es: seq<Entry>): (r: seq<Entry>)
    ensures SortedByIndex(r)
    ensures forall k :: WithIndex(r, k) == WithIndex(es, k)
  {
    if |es| == 0 then []
    else
      var t := SortByIndex(es[1..]);
      assert forall k :: WithIndex(Insert(es[0], t), k) == WithIndex(es, k) by {
        forall k
          ensures WithIndex(Insert(es[0], t), k) == WithIndex(es, k)
        {
          InsertWithIndex(es[0], t, k);
        }
      }
      Insert(es[0], t)
  }

  lemma {:induction false} WithIndexMember(s: seq<Entry>, k: int, e: Entry)
    requires e in WithIndex(s, k)
    ensures e in s && e.index == k
    decreases |s|
  {
    if e != s[0] || s[0].index != k {
      WithIndexMember(s[1..], k, e);
    }
  }

  lemma {:induction false} WithIndexConcat(a: seq<Entry>, b: seq<Entry>, k: int)
    ensures WithIndex(a + b, k) == WithIndex(a, k) + WithIndex(b, k)
    decreases |a|
  {
    if |a| > 0 {
      assert (a + b)[1..] == a[1..] + b;
      assert (a + b)[0] == a[0];
      WithIndexConcat(a[1..], b, k);
      var h := if a[0].index == k then [a[0]] else [];
      assert WithIndex(a + b, k) == h + (WithIndex(a[1..], k) + WithIndex(b, k));
      assert h + (WithIndex(a[1..], k) + WithIndex(b, k)) == (h + WithIndex(a[1..], k)) + WithIndex(b, k);
    } else {
      assert a + b == b;
    }
  }

  /** A sorted list is fixed by its per-number sub-lists: any stable sort by
      slot number (Python's included) yields exactly `SortByIndex`. */
  lemma {:induction false} SortedUnique(a: seq<Entry>, b: seq<Entry>)
    requires SortedByIndex(a) && SortedByIndex(b)
    requires forall k :: WithIndex(a, k) == WithIndex(b, k)
    ensures a == b
    decreases |a| + |b|
  {
    if |a| > 0 {
      assert WithIndex(b, a[0].index) == WithIndex(a, a[0].index) != [];
    }
    if |b| > 0 {
      assert WithIndex(a, b[0].index) == WithIndex(b, b[0].index) != [];
    }
    if |a| > 0 && |b| > 0 {
      var m := a[0].index;
      var n := b[0].index;
      assert WithIndex(a, m)[0] == a[0];
      assert WithIndex(b, n)[0] == b[0];
      WithIndexMember(b, m, WithIndex(b, m)[0]);
      WithIndexMember(a, n, WithIndex(a, n)[0]);
      assert m == n;
      assert a[0] == b[0];
      forall k
        ensures WithIndex(a[1..], k) == WithIndex(b[1..], k)
      {
        var h := if a[0].index == k then [a[0]] else [];
        assert WithIndex(a, k) == h + WithIndex(a[1..], k);
        assert WithIndex(b, k) == h + WithIndex(b[1..], k);
        assert (h + WithIndex(a[1..], k))[|h|..] == WithIndex(a[1..], k);
        assert (h + WithIndex(b[1..], k))[|h|..] == WithIndex(b[1..], k);
      }
      SortedUnique(a[1..], b[1..]);
      assert a == [a[0]] + a[1..] && b == [b[0]] + b[1..];
    }
  }

  lemma {:induction false} EntriesConcat(a: seq<Arg>, b: seq<Arg>)
    ensures Entries(a + b) == Entries(a) + Entries(b)
    decreases |a|
  {
    if |a| > 0 {
      assert (a + b)[1..] == a[1..] + b;
      assert (a + b)[0] == a[0];
      EntriesConcat(a[1..], b);
      match a[0].slot
      case Some(n) =>
        assert Entries(a + b) == [Entry(n, a[0].value)] + (Entries(a[1..]) + Entries(b));
      case None =>
        assert Entries(a + b) == Entries(a[1..] + b);
    } else {
      assert a + b == b;
    }
  }

  /** Every entry of a stable sort comes from the list it sorted. */
  lemma OrderedMember(sorted: seq<Entry>, es: seq<Entry>, i: int)
    requires forall k :: WithIndex(sorted, k) == WithIndex(es, k)
    requires 0 <= i < |sorted|
    ensures sorted[i] in es
  {
    var k := sorted[i].index;
    WithIndexHas(sorted, i);
    WithIndexMember(es, k, sorted[i]);
  }

  lemma {:induction false} WithIndexHas(s: seq<Entry>, i: int)
    requires 0 <= i < |s|
    ensures s[i] in WithIndex(s, s[i].index)
    decreases |s|
  {
    if i > 0 {
      WithIndexHas(s[1..], i - 1);
    }
  }
}

=== FILE: widget_list.dfy ===
/**
 The Text Joiner's front end (`js/text_joiner.js`) as operations on the node's
 ordered widget list. Creating a widget through the host's factory appends it
 to the end of the list; widgets are told apart by kind and name.
 */
module WidgetList {
  import opened Wrappers
  import opened Strings
  import opened TextKeys
  import RegisteredJoiner

  /** Text slots above this number are hidden when a node is created. */
  const VisibleSlots: int := 5
  /** The add button refuses to go past this slot number. */
  const MaxTextIndex: nat := 25
  /** Saved values of a node showing only its first five slots: two settings and five texts. */
  const SavedBase: nat := 7
  const AddButtonLabel: string := "Add text box (Max 25)"

  datatype Widget = Input(name: string) | Button(caption: string)

  /** The one button the node creates. */
  const AddButton: Widget := Button(AddButtonLabel)

  /** A widget's `name`; the host names a button by its label. */
  function Name(w: Widget): string
  {
    match w
    case Input(n) => n
    case Button(c) => c
  }

  /** The slot number the front end reads from a widget's name, if any. */
  function Slot(w: Widget): Option<int>
  {
    JsTextIndex(Name(w))
  }

  /** A slot number the creation pass hides: one above 5. */
  predicate HiddenSlot(slot: Option<int>)
  {
    slot.Some? && slot.value > VisibleSlots
  }

  /** Removed by the creation pass: a `text_N` widget with N above 5. */
  predicate Hidden(w: Widget)
  {
    HiddenSlot(Slot(w))
  }

  /** The slot numbers read from each widget's name, in order. */
  function ReadSlots(ws: seq<Widget>): (r: seq<Option<int>>)
    ensures |r| == |ws|
  {
    if |ws| == 0 then [] else [Slot(ws[0])] + ReadSlots(ws[1..])
  }

  lemma {:induction false} ReadSlotsIndex(ws: seq<Widget>, i: nat)
    requires i < |ws|
    ensures ReadSlots(ws)[i] == Slot(ws[i])
    decreases i
  {
    if i > 0 {
      ReadSlotsIndex(ws[1..], i - 1);
    }
  }

  /** The widgets whose slot, as read into `slots`, is not hidden, in order. */
  function KeepUnhidden(ws: seq<Widget>, slots: seq<Option<int>>): (r: seq<Widget>)
    requires |slots| == |ws|
    ensures |r| <= |ws|
  {
    if |ws| == 0 then []
    else (if HiddenSlot(slots[0]) then [] else [ws[0]]) + KeepUnhidden(ws[1..], slots[1..])
  }

  /** Reference definition of the creation pass: the widgets that are not hidden, in order. */
  function KeepVisible(ws: seq<Widget>): (r: seq<Widget>)
  {
    KeepUnhidden(ws, ReadSlots(ws))
  }

  lemma {:induction false} ReadSlotsConcat(a: seq<Widget>, b: seq<Widget>)
    ensures ReadSlots(a + b) == ReadSlots(a) + ReadSlots(b)
    decreases |a|
  {
    if |a| > 0 {
      assert (a + b)[0] == a[0] && (a + b)[1..] == a[1..] + b;
      ReadSlotsConcat(a[1..], b);
    } else {
      assert a + b == b;
    }
  }

  lemma {:induction false} KeepUnhiddenMembers(ws: seq<Widget>, slots: seq<Option<int>>, w: Widget)
    requires |slots| == |ws|
    ensures w in KeepUnhidden(ws, slots) <==> exists i :: 0 <= i < |ws| && ws[i] == w && !HiddenSlot(slots[i])
    decreases |ws|
  {
    if |ws| > 0 {
      KeepUnhiddenMembers(ws[1..], slots[1..], w);
      if w in KeepUnhidden(ws[1..], slots[1..]) {
        var i :| 0 <= i < |ws| - 1 && ws[1..][i] == w && !HiddenSlot(slots[1..][i]);
        assert ws[i + 1] == w && !HiddenSlot(slots[i + 1]);
      }
      if exists i :: 0 <= i < |ws| && ws[i] == w && !HiddenSlot(slots[i]) {
        var i :| 0 <= i < |ws| && ws[i] == w && !HiddenSlot(slots[i]);
        if i > 0 {
          assert ws[1..][i - 1] == w && !HiddenSlot(slots[1..][i - 1]);
        }
      }
    }
  }

  /** The creation pass removes exactly the hidden widgets. */
  lemma KeepVisibleMembers(ws: seq<Widget>, w: Widget)
    ensures w in KeepVisible(ws) <==> w in ws && !Hidden(w)
  {
    var slots := ReadSlots(ws);
    KeepUnhiddenMembers(ws, slots, w);
    if w in KeepVisible(ws) {
      var i :| 0 <= i < |ws| && ws[i] == w && !HiddenSlot(slots[i]);
      ReadSlotsIndex(ws, i);
    }
    if w in ws && !Hidden(w) {
      var i :| 0 <= i < |ws| && ws[i] == w;
      ReadSlotsIndex(ws, i);
      assert ws[i] == w && !HiddenSlot(slots[i]);
    }
  }

  /** One step of the filter: the first widget, if kept, then the rest filtered. */
  lemma KeepUnhiddenStep(ws: seq<Widget>, slots: seq<Option<int>>, i: nat)
    requires |slots| == |ws| && i < |ws|
    ensures KeepUnhidden(ws[i..], slots[i..]) ==
      (if HiddenSlot(slots[i]) then [] else [ws[i]]) + KeepUnhidden(ws[i + 1..], slots[i + 1..])
  {
    assert ws[i..][0] == ws[i] && slots[i..][0] == slots[i];
    assert ws[i..][1..] == ws[i + 1..] && slots[i..][1..] == slots[i + 1..];
  }

  lemma {:induction false} KeepUnhiddenConcat(a: seq<Widget>, sa: seq<Option<int>>,
                                               b: seq<Widget>, sb: seq<Option<int>>)
    requires |sa| == |a| && |sb| == |b|
    ensures KeepUnhidden(a + b, sa + sb) == KeepUnhidden(a, sa) + KeepUnhidden(b, sb)
    decreases |a|
  {
    if |a| > 0 {
      var ab, sab := a + b, sa + sb;
      KeepUnhiddenStep(ab, sab, 0);
      KeepUnhiddenStep(a, sa, 0);
      assert ab[0] == a[0] && ab[1..] == a[1..] + b;
      assert sab[0] == sa[0] && sab[1..] == sa[1..] + sb;
      assert ab[0..] == ab && a[0..] == a && sab[0..] == sab && sa[0..] == sa;
      KeepUnhiddenConcat(a[1..], sa[1..], b, sb);
    } else {
      assert a + b == b && sa + sb == sb;
    }
  }

  /** The pass keeps relative order: filtering a concatenation filters each half. */
  lemma KeepVisibleConcat(a: seq<Widget>, b: seq<Widget>)
    ensures KeepVisible(a + b) == KeepVisible(a) + KeepVisible(b)
  {
    ReadSlotsConcat(a, b);
    KeepUnhiddenConcat(a, ReadSlots(a), b, ReadSlots(b));
  }

  /** The splice loop of the creation pass over widgets whose slots have
      been read into `slots`: from the last widget down to the first, every
      widget with a hidden slot is spliced out. */
  method DropHidden(ws: seq<Widget>, slots: seq<Option<int>>) returns (r: seq<Widget>)
    requires |slots| == |ws|
    ensures r == KeepUnhidden(ws, slots)
  {
    r := ws;
    var i := |ws| - 1;
    while i >= 0
      invariant -1 <= i < |ws|
      invariant r == ws[..i + 1] + KeepUnhidden(ws[i + 1..], slots[i + 1..])
      decreases i
    {
      ghost var kept := KeepUnhidden(ws[i + 1..], slots[i + 1..]);
      assert r[..i] == ws[..i] && r[i] == ws[i] && r[i + 1..] == kept;
      KeepUnhiddenStep(ws, slots, i);
      if HiddenSlot(slots[i]) {
        r := r[..i] + r[i + 1..];
      }
      assert r == ws[..i] + KeepUnhidden(ws[i..], slots[i..]);
      i := i - 1;
    }
    assert ws[0..] == ws && slots[0..] == slots;
  }

  /** The creation pass: `text_N` widgets with N above 5 are spliced out. */
  method HideExtraTextWidgets(ws: seq<Widget>) returns (r: seq<Widget>)
    ensures r == KeepVisible(ws)
  {
    r := DropHidden(ws, ReadSlots(ws));
  }

  /** The largest number among `slots`, or 0 when there is none above 0,
      scanning in order as the source's loop does. */
  function MaxSlot(slots: seq<Option<int>>): (r: int)
    ensures r >= 0
    ensures forall i :: 0 <= i < |slots| && slots[i].Some? ==> slots[i].value <= r
    ensures r > 0 ==> exists i :: 0 <= i < |slots| && slots[i] == Some(r)
  {
    if |slots| == 0 then 0
    else
      var m := MaxSlot(slots[..|slots| - 1]);
      assert forall i :: 0 <= i < |slots| - 1 ==> slots[..|slots| - 1][i] == slots[i];
      match slots[|slots| - 1]
      case Some(n) => if n > m then n else m
      case None => m
  }

  /** `maxIndex` in `addTextWidget`: the largest slot number among the
      widgets, or 0 when there is none above 0. */
  function MaxIndex(ws: seq<Widget>): (r: int)
    ensures r >= 0
    ensures forall i :: 0 <= i < |ws| && ReadSlots(ws)[i].Some? ==> ReadSlots(ws)[i].value <= r
    ensures r > 0 ==> exists i :: 0 <= i < |ws| && ReadSlots(ws)[i] == Some(r)
  {
    MaxSlot(ReadSlots(ws))
  }

  /** `addTextWidget`: at slot 25 or above nothing changes; otherwise one
      text widget is appended whose slot is one above every slot present
      and at most 25. */
  function AddTextWidget(ws: seq<Widget>): (r: seq<Widget>)
    ensures MaxIndex(ws) >= MaxTextIndex ==> r == ws
    ensures MaxIndex(ws) < MaxTextIndex ==>
      r == ws + [Input(TextName(MaxIndex(ws) + 1))] && 1 <= MaxIndex(ws) + 1 <= MaxTextIndex
  {
    var maxIndex := MaxIndex(ws);
    if maxIndex >= MaxTextIndex then ws
    else ws + [Input(TextName(maxIndex + 1))]
  }

  /** The added widget reads back as the next slot, above every slot already present. */
  lemma AddedSlotIsNext(ws: seq<Widget>)
    requires MaxIndex(ws) < MaxTextIndex
    ensures var r := AddTextWidget(ws);
      |r| == |ws| + 1 && r[..|ws|] == ws && r[|ws|].Input?
    ensures ReadSlots(AddTextWidget(ws)) == ReadSlots(ws) + [Some(MaxIndex(ws) + 1)]
    ensures forall i :: 0 <= i < |ws| && ReadSlots(ws)[i].Some? ==> ReadSlots(ws)[i].value < MaxIndex(ws) + 1
    ensures MaxIndex(AddTextWidget(ws)) == MaxIndex(ws) + 1
  {
    var next := MaxIndex(ws) + 1;
    var added := [Input(TextName(next))];
    var r := ws + added;
    assert r[..|ws|] == ws;
    assert ReadSlots(added) == [Some(next)] by {
      ReadSlotsIndex(added, 0);
      TextNameIndex(next);
    }
    ReadSlotsConcat(ws, added);
    var slots := ReadSlots(r);
    assert slots[|ws|] == Some(next);
    forall i | 0 <= i < |slots| && slots[i].Some?
      ensures slots[i].value <= next
    {
      if i < |ws| {
        assert slots[i] == ReadSlots(ws)[i];
      }
    }
    MaxSlotIs(slots, next);
  }

  /** JavaScript's `findIndex`: the first position whose widget satisfies `p`. */
  function FirstWhere(ws: seq<Widget>, p: Widget -> bool): (r: Option<nat>)
    ensures r.Some? ==> r.value < |ws| && p(ws[r.value])
    ensures r.Some? ==> forall j :: 0 <= j < r.value ==> !p(ws[j])
    ensures r.None? ==> forall j :: 0 <= j < |ws| ==> !p(ws[j])
  {
    if |ws| == 0 then None
    else if p(ws[0]) then Some(0)
    else
      match FirstWhere(ws[1..], p)
      case Some(j) => Some(j + 1)
      case None =>
        assert forall j :: 1 <= j < |ws| ==> ws[j] == ws[1..][j - 1];
        None
  }

  /** The first position satisfying `p` is the one `FirstWhere` finds. */
  lemma FirstWhereIs(ws: seq<Widget>, p: Widget -> bool, k: nat)
    requires k < |ws| && p(ws[k])
    requires forall j :: 0 <= j < k ==> !p(ws[j])
    ensures FirstWhere(ws, p) == Some(k)
  {
    var r := FirstWhere(ws, p);
    assert r.Some?;
    assert !(r.value < k) && !(r.value > k);
  }

  predicate IsTrimSetting(w: Widget)
  {
    Name(w) == "trim_whitespace"
  }

  /** The positions the reposition step looks at: the trim setting and the button. */
  function TrimIndex(ws: seq<Widget>): Option<nat>
  {
    FirstWhere(ws, IsTrimSetting)
  }

  /** `widgets.indexOf(btn)`. JavaScript compares objects by identity; here
      widgets are values, so the first widget equal to `btn` is found. The
      node holds one button, so the two agree on the lists it builds. */
  function IndexOf(ws: seq<Widget>, btn: Widget): Option<nat>
  {
    FirstWhere(ws, w => w == btn)
  }

  /** The button is moved only when the trim setting is present and the
      button sits strictly later than just after it. */
  predicate MovesButton(ws: seq<Widget>, btn: Widget)
  {
    TrimIndex(ws).Some? && IndexOf(ws, btn).Some? && IndexOf(ws, btn).value > TrimIndex(ws).value + 1
  }

  /** The list without position `k`. */
  function RemoveAt(s: seq<Widget>, k: nat): (r: seq<Widget>)
    requires k < |s|
    ensures |r| == |s| - 1
  {
    s[..k] + s[k + 1..]
  }

  /** The two splices: the widget at `b` is taken out and inserted at `t + 1`,
      which lies before it. */
  function MoveUp(ws: seq<Widget>, b: nat, t: nat): (r: seq<Widget>)
    requires t + 1 < b < |ws|
    ensures |r| == |ws|
    ensures r[t + 1] == ws[b]
    ensures forall j :: 0 <= j <= t ==> r[j] == ws[j]
    ensures RemoveAt(r, t + 1) == RemoveAt(ws, b)
  {
    var r := ws[..t + 1] + [ws[b]] + ws[t + 1..b] + ws[b + 1..];
    assert RemoveAt(r, t + 1) == ws[..t + 1] + ws[t + 1..b] + ws[b + 1..];
    assert ws[..b] == ws[..t + 1] + ws[t + 1..b];
    r
  }

  /** Moving a widget up keeps the same widgets. */
  lemma MoveUpPermutes(ws: seq<Widget>, b: nat, t: nat)
    requires t + 1 < b < |ws|
    ensures multiset(MoveUp(ws, b, t)) == multiset(ws)
  {
    var p, m, q := ws[..t + 1], ws[t + 1..b], ws[b + 1..];
    assert MoveUp(ws, b, t) == p + [ws[b]] + m + q;
    assert ws == p + m + [ws[b]] + q;
  }

  /** The reposition step: the button is taken out and put back just after
      `trim_whitespace` when it sat strictly later; everything else keeps its
      relative order, so the list is a permutation of the old one. */
  function Reposition(ws: seq<Widget>, btn: Widget): (r: seq<Widget>)
    ensures multiset(r) == multiset(ws)
    ensures !MovesButton(ws, btn) ==> r == ws
    ensures MovesButton(ws, btn) ==>
      var t := TrimIndex(ws).value; var b := IndexOf(ws, btn).value;
      |r| == |ws| && r[t + 1] == btn && (forall j :: 0 <= j <= t ==> r[j] == ws[j]) &&
      RemoveAt(r, t + 1) == RemoveAt(ws, b)
  {
    if MovesButton(ws, btn) then
      var t := TrimIndex(ws).value;
      var b := IndexOf(ws, btn).value;
      MoveUpPermutes(ws, b, t);
      MoveUp(ws, b, t)
    else ws
  }

  /** Moving the button is idempotent: a second pass finds it in place. */
  lemma RepositionIdempotent(ws: seq<Widget>, btn: Widget)
    ensures Reposition(Reposition(ws, btn), btn) == Reposition(ws, btn)
  {
    var r := Reposition(ws, btn);
    if MovesButton(ws, btn) {
      var t := TrimIndex(ws).value;
      var b := IndexOf(ws, btn).value;
      assert r[t] == ws[t];
      FirstWhereIs(r, IsTrimSetting, t);
      assert forall j :: 0 <= j <= t ==> r[j] == ws[j] != btn;
      FirstWhereIs(r, w => w == btn, t + 1);
    }
  }

  /** `onNodeCreated`: the creation pass, then the button appended and moved
      up to just after `trim_whitespace`. */
  function NodeCreated(ws: seq<Widget>): (r: seq<Widget>)
    ensures multiset(r) == multiset(KeepVisible(ws)) + multiset{AddButton}
  {
    Reposition(KeepVisible(ws) + [AddButton], AddButton)
  }

  /** Iterations `i`, `i + 1`, … of the restore loop for `extra` extra
      values: each appends the next slot from 6 on, stopping after slot 25. */
  function RestoreFrom(i: nat, extra: nat): (r: seq<Widget>)
    ensures |r| == if i < extra && i < MaxTextIndex - VisibleSlots
                  then Min(extra, MaxTextIndex - VisibleSlots) - i else 0
    ensures forall j :: 0 <= j < |r| ==> r[j] == Input(TextName(VisibleSlots + 1 + i + j))
    decreases extra - i
  {
    if i >= extra then []
    else if VisibleSlots + i + 1 > MaxTextIndex then []
    else [Input(TextName(VisibleSlots + 1 + i))] + RestoreFrom(i + 1, extra)
  }

  function Min(a: int, b: int): int
  {
    if a <= b then a else b
  }

  /** `onConfigure` with the saved `widgets_values` length, if any: nothing
      is added for 7 or fewer values; otherwise `text_6`, `text_7`, … are
      appended, one per extra value, never past `text_25`. */
  function Restore(ws: seq<Widget>, savedLength: Option<nat>): (r: seq<Widget>)
    ensures |ws| <= |r| && r[..|ws|] == ws
    ensures savedLength.None? || savedLength.value <= SavedBase ==> r == ws
    ensures savedLength.Some? && savedLength.value > SavedBase ==>
      |r| == |ws| + Min(savedLength.value - SavedBase, MaxTextIndex - VisibleSlots)
    ensures forall j :: |ws| <= j < |r| ==>
      r[j] == Input(TextName(VisibleSlots + 1 + (j - |ws|))) && VisibleSlots + 1 + (j - |ws|) <= MaxTextIndex
  {
    var added := match savedLength
      case Some(n) => if n > SavedBase then RestoreFrom(0, n - SavedBase) else []
      case None => [];
    ws + added
  }

  /** Input widgets for a list of names, as the host creates them. */
  function Inputs(names: seq<string>): (r: seq<Widget>)
    ensures |r| == |names|
    ensures forall i :: 0 <= i < |r| ==> r[i] == Input(names[i])
  {
    seq(|names|, i requires 0 <= i < |names| => Input(names[i]))
  }

  lemma InputsConcat(a: seq<string>, b: seq<string>)
    ensures Inputs(a + b) == Inputs(a) + Inputs(b)
  {
  }

  /** The widgets the host builds from the registered node's declared inputs. */
  function DeclaredWidgets(): seq<Widget>
  {
    var inputs := RegisteredJoiner.DeclaredInputs();
    Inputs(inputs.required + inputs.optional)
  }

  /** The settings, the button just after them, then `text_1` … `text_k`. */
  function Layout(k: nat): seq<Widget>
  {
    Settings() + [AddButton] + TextWidgets(1, k)
  }

  /** The number of values a node saves: one per widget except the button. */
  function SavedCount(ws: seq<Widget>): (r: nat)
    ensures r <= |ws|
  {
    if |ws| == 0 then 0
    else (if ws[0].Button? then 0 else 1) + SavedCount(ws[1..])
  }

  /** Text widgets for `count` consecutive slots from `first`. */
  function TextWidgets(first: nat, count: nat): (r: seq<Widget>)
    ensures |r| == count
    decreases count
  {
    if count == 0 then [] else [Input(TextName(first))] + TextWidgets(first + 1, count - 1)
  }

  /** The box at position `i` is the one for slot `first + i`. */
  lemma {:induction false} TextWidgetsIndex(first: nat, count: nat, i: nat)
    requires i < count
    ensures TextWidgets(first, count)[i] == Input(TextName(first + i))
    decreases i
  {
    if i > 0 {
      TextWidgetsIndex(first + 1, count - 1, i - 1);
    }
  }

  /** The boxes are the input widgets the host builds from the slot names. */
  lemma {:induction false} TextWidgetsAreInputs(first: nat, count: nat)
    ensures TextWidgets(first, count) == Inputs(TextNames(first, count))
  {
    var a, b := TextWidgets(first, count), Inputs(TextNames(first, count));
    forall i | 0 <= i < count
      ensures a[i] == b[i]
    {
      TextWidgetsIndex(first, count, i);
    }
  }

  /** The settings and the button are not read as text slots. */
  lemma FixedWidgetsHaveNoSlot()
    ensures Slot(Input("join_string")) == None
    ensures Slot(Input("trim_whitespace")) == None
    ensures Slot(AddButton) == None
  {
    assert "join_string"[..5] != TextPrefix by { assert "join_string"[0] != TextPrefix[0]; }
    assert "trim_whitespace"[..5] != TextPrefix by { assert "trim_whitespace"[1] != TextPrefix[1]; }
    assert AddButtonLabel[..5] != TextPrefix by { assert AddButtonLabel[0] != TextPrefix[0]; }
  }

  /** Slot numbers `first`, `first + 1`, … for `count` widgets. */
  function Numbered(first: nat, count: nat): (r: seq<Option<int>>)
    ensures |r| == count
    decreases count
  {
    if count == 0 then [] else [Some(first)] + Numbered(first + 1, count - 1)
  }

  /** Position `i` holds slot number `first + i`. */
  lemma {:induction false} NumberedIndex(first: nat, count: nat, i: nat)
    requires i < count
    ensures Numbered(first, count)[i] == Some(first + i)
    decreases i
  {
    if i > 0 {
      NumberedIndex(first + 1, count - 1, i - 1);
    }
  }

  /** Text widgets read back as their consecutive slot numbers. */
  lemma TextWidgetSlots(first: nat, count: nat)
    ensures ReadSlots(TextWidgets(first, count)) == Numbered(first, count)
  {
    var ws := TextWidgets(first, count);
    var nums := Numbered(first, count);
    forall i | 0 <= i < count
      ensures ReadSlots(ws)[i] == nums[i]
    {
      ReadSlotsIndex(ws, i);
      TextWidgetsIndex(first, count, i);
      NumberedIndex(first, count, i);
      TextNameIndex(first + i);
    }
  }

  lemma {:induction false} TextWidgetsConcat(first: nat, m: nat, n: nat)
    ensures TextWidgets(first, m) + TextWidgets(first + m, n) == TextWidgets(first, m + n)
    decreases m
  {
    if m > 0 {
      TextWidgetsConcat(first + 1, m - 1, n);
      assert TextWidgets(first, m) + TextWidgets(first + m, n)
          == [Input(TextName(first))] + (TextWidgets(first + 1, m - 1) + TextWidgets(first + m, n));
    }
  }

  lemma {:induction false} KeepUnhiddenAll(ws: seq<Widget>, slots: seq<Option<int>>)
    requires |slots| == |ws|
    requires forall i :: 0 <= i < |slots| ==> !HiddenSlot(slots[i])
    ensures KeepUnhidden(ws, slots) == ws
    decreases |ws|
  {
    if |ws| > 0 {
      assert forall i :: 0 <= i < |slots| - 1 ==> slots[1..][i] == slots[i + 1];
      KeepUnhiddenAll(ws[1..], slots[1..]);
    }
  }

  lemma {:induction false} KeepUnhiddenNone(ws: seq<Widget>, slots: seq<Option<int>>)
    requires |slots| == |ws|
    requires forall i :: 0 <= i < |slots| ==> HiddenSlot(slots[i])
    ensures KeepUnhidden(ws, slots) == []
    decreases |ws|
  {
    if |ws| > 0 {
      assert forall i :: 0 <= i < |slots| - 1 ==> slots[1..][i] == slots[i + 1];
      KeepUnhiddenNone(ws[1..], slots[1..]);
    }
  }

  /** The two settings, as widgets. */
  function Settings(): seq<Widget>
  {
    [Input("join_string"), Input("trim_whitespace")]
  }

  lemma DeclaredWidgetsAre()
    ensures DeclaredWidgets() == Settings() + TextWidgets(1, MaxTextIndex)
  {
    var inputs := RegisteredJoiner.DeclaredInputs();
    assert inputs.required == ["join_string", "trim_whitespace"] && inputs.optional == TextNames(1, MaxTextIndex);
    SettingsThenTexts(inputs.required, inputs.optional, MaxTextIndex);
  }

  lemma SettingsThenTexts(required: seq<string>, optional: seq<string>, n: nat)
    requires required == ["join_string", "trim_whitespace"] && optional == TextNames(1, n)
    ensures Inputs(required + optional) == Settings() + TextWidgets(1, n)
  {
    InputsConcat(required, optional);
    TextWidgetsAreInputs(1, n);
  }

  /** The settings and the button read as no slot. */
  lemma FixedSlots()
    ensures ReadSlots(Settings()) == [None, None]
    ensures ReadSlots(Settings() + [AddButton]) == [None, None, None]
  {
    FixedWidgetsHaveNoSlot();
    var fixed := Settings() + [AddButton];
    ReadSlotsIndex(fixed, 0);
    ReadSlotsIndex(fixed, 1);
    ReadSlotsIndex(fixed, 2);
    ReadSlotsConcat(Settings(), [AddButton]);
  }

  lemma {:induction false} NumberedConcat(first: nat, m: nat, n: nat)
    ensures Numbered(first, m) + Numbered(first + m, n) == Numbered(first, m + n)
    decreases m
  {
    if m > 0 {
      NumberedConcat(first + 1, m - 1, n);
      assert Numbered(first, m) + Numbered(first + m, n)
          == [Some(first)] + (Numbered(first + 1, m - 1) + Numbered(first + m, n));
    }
  }

  /** Widgets numbered from 1 to at most 5 all survive the creation pass. */
  lemma LowSlotsKept(ws: seq<Widget>, first: nat, count: nat)
    requires |ws| == count && first + count <= VisibleSlots + 1
    ensures KeepUnhidden(ws, Numbered(first, count)) == ws
  {
    var nums := Numbered(first, count);
    forall i | 0 <= i < count
      ensures !HiddenSlot(nums[i])
    {
      NumberedIndex(first, count, i);
    }
    KeepUnhiddenAll(ws, nums);
  }

  /** Widgets numbered above 5 are all removed by it. */
  lemma HighSlotsDropped(ws: seq<Widget>, first: nat, count: nat)
    requires |ws| == count && first > VisibleSlots
    ensures KeepUnhidden(ws, Numbered(first, count)) == []
  {
    var nums := Numbered(first, count);
    forall i | 0 <= i < count
      ensures HiddenSlot(nums[i])
    {
      NumberedIndex(first, count, i);
    }
    KeepUnhiddenNone(ws, nums);
  }

  /** Of the boxes numbered 1 to n, the pass keeps those numbered up to m = min(n, 5). */
  lemma TextsKept(n: nat, m: nat)
    requires m == Min(n, VisibleSlots)
    ensures KeepUnhidden(TextWidgets(1, m) + TextWidgets(1 + m, n - m), Numbered(1, m) + Numbered(1 + m, n - m))
         == TextWidgets(1, m)
  {
    var shown, extra := TextWidgets(1, m), TextWidgets(1 + m, n - m);
    var low, high := Numbered(1, m), Numbered(1 + m, n - m);
    LowSlotsKept(shown, 1, m);
    if n > m {
      HighSlotsDropped(extra, 1 + m, n - m);
    }
    KeepUnhiddenConcat(shown, low, extra, high);
  }

  /** Widgets followed by boxes 1 to n, cut after box m, with the slots read from them. */
  lemma CutAfter(fixed: seq<Widget>, n: nat, m: nat)
    requires m <= n
    ensures fixed + TextWidgets(1, n) == fixed + (TextWidgets(1, m) + TextWidgets(1 + m, n - m))
    ensures ReadSlots(fixed + TextWidgets(1, n)) == ReadSlots(fixed) + (Numbered(1, m) + Numbered(1 + m, n - m))
  {
    TextWidgetsConcat(1, m, n - m);
    calc {
      ReadSlots(fixed + TextWidgets(1, n));
    == { ReadSlotsConcat(fixed, TextWidgets(1, n)); }
      ReadSlots(fixed) + ReadSlots(TextWidgets(1, n));
    == { TextWidgetSlots(1, n); }
      ReadSlots(fixed) + Numbered(1, n);
    == { NumberedConcat(1, m, n - m); }
      ReadSlots(fixed) + (Numbered(1, m) + Numbered(1 + m, n - m));
    }
  }

  /** The creation pass on widgets none of which it hides, followed by
      `text_1` … `text_n`, keeps those widgets and the boxes numbered up to 5. */
  lemma CreationPass(fixed: seq<Widget>, n: nat)
    requires forall i :: 0 <= i < |fixed| ==> !HiddenSlot(ReadSlots(fixed)[i])
    ensures KeepVisible(fixed + TextWidgets(1, n)) == fixed + TextWidgets(1, Min(n, VisibleSlots))
  {
    var m: nat := Min(n, VisibleSlots);
    CutAfter(fixed, n, m);
    KeepUnhiddenAll(fixed, ReadSlots(fixed));
    TextsKept(n, m);
    KeepUnhiddenConcat(fixed, ReadSlots(fixed),
                       TextWidgets(1, m) + TextWidgets(1 + m, n - m), Numbered(1, m) + Numbered(1 + m, n - m));
  }

  /** Text boxes are not the button. */
  lemma NoButtonAmongTexts(first: nat, count: nat)
    ensures AddButton !in TextWidgets(first, count)
  {
    var texts := TextWidgets(first, count);
    forall i | 0 <= i < count
      ensures texts[i] != AddButton
    {
      TextWidgetsIndex(first, count, i);
    }
  }

  /** The button appended after a setting and `trim_whitespace`, then some
      other widgets, is moved up to right after `trim_whitespace`. */
  lemma ButtonMovedUp(fixed: seq<Widget>, rest: seq<Widget>)
    requires |fixed| == 2 && !IsTrimSetting(fixed[0]) && IsTrimSetting(fixed[1])
    requires AddButton !in fixed && AddButton !in rest
    ensures Reposition(fixed + rest + [AddButton], AddButton) == fixed + [AddButton] + rest
  {
    var ws := fixed + rest + [AddButton];
    FirstWhereIs(ws, IsTrimSetting, 1);
    forall j | 0 <= j < 2 + |rest|
      ensures ws[j] != AddButton
    {
      if j < 2 {
        assert ws[j] == fixed[j];
      } else {
        assert ws[j] == rest[j - 2];
      }
    }
    FirstWhereIs(ws, w => w == AddButton, 2 + |rest|);
    if |rest| > 0 {
      var r := Reposition(ws, AddButton);
      assert RemoveAt(r, 2) == fixed + rest by {
        assert RemoveAt(ws, 2 + |rest|) == fixed + rest;
      }
      assert r == r[..2] + [r[2]] + RemoveAt(r, 2)[2..];
    }
  }

  /** A node created with the settings and `text_1` … `text_n`, for n of at
      least 5, shows the settings, the add button and `text_1` … `text_5`. */
  lemma CreatedFrom(n: nat)
    requires n >= VisibleSlots
    ensures NodeCreated(Settings() + TextWidgets(1, n)) == Layout(VisibleSlots)
  {
    var shown := TextWidgets(1, VisibleSlots);
    assert KeepVisible(Settings() + TextWidgets(1, n)) == Settings() + shown by {
      FixedSlots();
      CreationPass(Settings(), n);
    }
    NoButtonAmongTexts(1, VisibleSlots);
    ButtonMovedUp(Settings(), shown);
  }

  /** A freshly created node shows the two settings, the add button and
      `text_1` … `text_5`, in that order. */
  lemma InitialLayout()
    ensures NodeCreated(DeclaredWidgets()) == Layout(VisibleSlots)
  {
    DeclaredWidgetsAre();
    CreatedFrom(MaxTextIndex);
  }

  /** The number of values saved for a list of input widgets is its length. */
  lemma {:induction false} SavedCountInputs(names: seq<string>)
    ensures SavedCount(Inputs(names)) == |names|
    decreases |names|
  {
    if |names| > 0 {
      assert Inputs(names)[1..] == Inputs(names[1..]);
      SavedCountInputs(names[1..]);
    }
  }

  /** The standard layout saves two settings and `k` texts. */
  lemma LayoutSavedCount(k: nat)
    ensures SavedCount(Layout(k)) == k + 2
  {
    var ws := Layout(k);
    SavedCountInputs(TextNames(1, k));
    TextWidgetsAreInputs(1, k);
    var texts := TextWidgets(1, k);
    assert ws[1..][1..][1..] == texts;
    assert SavedCount(ws[1..][1..]) == SavedCount(texts);
    assert SavedCount(ws[1..]) == 1 + SavedCount(texts);
  }

  /** The restore loop for `extra` values, up to 20, rebuilds boxes 6 onwards. */
  lemma RestoredBoxes(extra: nat)
    requires extra <= MaxTextIndex - VisibleSlots
    ensures RestoreFrom(0, extra) == TextWidgets(VisibleSlots + 1, extra)
  {
    var a, b := RestoreFrom(0, extra), TextWidgets(VisibleSlots + 1, extra);
    forall j | 0 <= j < extra
      ensures a[j] == b[j]
    {
      TextWidgetsIndex(VisibleSlots + 1, extra, j);
    }
  }

  /** Reloading a node saved with `text_1` … `text_k` showing, for k from 5
      to 25, brings back exactly that layout. */
  lemma SaveReload(k: nat)
    requires VisibleSlots <= k <= MaxTextIndex
    ensures Restore(Layout(VisibleSlots), Some(SavedCount(Layout(k)))) == Layout(k)
  {
    LayoutSavedCount(k);
    if k > VisibleSlots {
      var extra := k - VisibleSlots;
      assert Restore(Layout(VisibleSlots), Some(k + 2)) == Layout(VisibleSlots) + RestoreFrom(0, extra);
      RestoredBoxes(extra);
      TextWidgetsConcat(1, VisibleSlots, extra);
      assert Layout(k) == Settings() + [AddButton] + (TextWidgets(1, VisibleSlots) + TextWidgets(VisibleSlots + 1, extra));
    }
  }

  /** Were the button saved too, a node showing `text_1` … `text_k` would
      report one value more, and reloading it would show one box more. */
  lemma SavedButtonAddsBox(k: nat)
    requires VisibleSlots <= k < MaxTextIndex
    ensures Restore(Layout(VisibleSlots), Some(SavedCount(Layout(k)) + 1)) == Layout(k + 1)
  {
    LayoutSavedCount(k);
    LayoutSavedCount(k + 1);
    SaveReload(k + 1);
  }

  /** The largest of slot numbers bounded by `k` that include `k`, or of
      none above 0 when `k` is 0, is `k`. */
  lemma MaxSlotIs(slots: seq<Option<int>>, k: nat)
    requires forall i :: 0 <= i < |slots| && slots[i].Some? ==> slots[i].value <= k
    requires k > 0 ==> exists i :: 0 <= i < |slots| && slots[i] == Some(k)
    ensures MaxSlot(slots) == k
  {
  }

  /** The standard layout reads as no slot three times, then slots 1 to `k`. */
  lemma LayoutSlots(k: nat)
    ensures ReadSlots(Layout(k)) == [None, None, None] + Numbered(1, k)
  {
    FixedSlots();
    TextWidgetSlots(1, k);
    ReadSlotsConcat(Settings() + [AddButton], TextWidgets(1, k));
  }

  /** The slots of the standard layout run from 1 to `k`, so the highest is `k`. */
  lemma LayoutMaxIndex(k: nat)
    ensures MaxIndex(Layout(k)) == k
  {
    LayoutSlots(k);
    var slots := [None, None, None] + Numbered(1, k);
    forall i | 3 <= i < |slots|
      ensures slots[i] == Some(i - 2)
    {
      NumberedIndex(1, k, i - 3);
    }
    if k > 0 {
      assert slots[k + 2] == Some(k);
    }
    MaxSlotIs(slots, k);
  }

  /** Pressing the add button on the standard layout shows the next text
      slot, until slot 25 is showing; then nothing changes. */
  lemma AddExtendsLayout(k: nat)
    requires k <= MaxTextIndex
    ensures k < MaxTextIndex ==> AddTextWidget(Layout(k)) == Layout(k + 1)
    ensures k == MaxTextIndex ==> AddTextWidget(Layout(k)) == Layout(k)
  {
    LayoutMaxIndex(k);
    if k < MaxTextIndex {
      LayoutGrows(k);
    }
  }

  /** The layout for `k + 1` boxes is the one for `k` with `text_(k+1)` appended. */
  lemma LayoutGrows(k: nat)
    ensures Layout(k + 1) == Layout(k) + [Input(TextName(k + 1))]
  {
    TextWidgetsConcat(1, k, 1);
    assert TextWidgets(k + 1, 1) == [Input(TextName(k + 1))];
  }
}

=== FILE: wildcards.dfy ===
/**
 The wildcard list served to the autocomplete (`get_wildcards` in
 `utils/wildcards.py`): one `__name__` per `.txt` file, one `__path__` per
 list reachable through the mappings of each YAML file, then
 `sorted(set(...))`. The directory check, the file listing and the YAML
 loader are inputs: whether the directory exists, the `.txt` file names, and
 each YAML file's load outcome.
 */
module Wildcards {
  import opened Wrappers
  import opened Strings

  /** The delimiter around every wildcard name. */
  const Delimiter: string := "__"

  /** A YAML document as `yaml.safe_load` returns it: a mapping (its keys in
      order), a list, or a scalar with its Python truth value (`None`,
      `False`, `0` and `""` are false). A loaded mapping never repeats a key;
      the type does not enforce this, and no property below needs it: a
      repeated key would only list its names twice, which the final
      `sorted(set(..))` removes. */
  datatype Yaml =
    | Mapping(entries: seq<Entry>)
    | Sequence(items: seq<Yaml>)
    | Scalar(truthy: bool)

  /** One key of a mapping with the node under it. */
  datatype Entry = Entry(key: string, value: Yaml)

  /** A wildcard name: text wrapped in the delimiter. */
  function Wrap(path: string): (r: string)
    ensures |r| == |path| + 4
    ensures r[..2] == Delimiter && r[|r| - 2..] == Delimiter
    ensures r[2..|r| - 2] == path
  {
    Delimiter + path + Delimiter
  }

  predicate IsWildcardName(s: string)
  {
    |s| >= 4 && s[..2] == Delimiter && s[|s| - 2..] == Delimiter
  }

  /** A file the directory listing keeps: ends in `.txt`, not hidden. */
  predicate TxtFileName(filename: string)
  {
    |filename| > 4 && filename[|filename| - 4..] == ".txt" && filename[0] != '.'
  }

  /** `os.path.splitext` of a file the `*.txt` pattern matched: the name
      without its `.txt` extension. */
  function TxtStem(filename: string): (r: string)
    requires TxtFileName(filename)
    ensures r + ".txt" == filename
  {
    filename[..|filename| - 4]
  }

  /** The name a `.txt` wildcard file contributes. */
  function TxtName(filename: string): (r: string)
    requires TxtFileName(filename)
    ensures IsWildcardName(r)
    ensures r[2..|r| - 2] + ".txt" == filename
  {
    Wrap(TxtStem(filename))
  }

  /** The path of a mapping's child: `prefix/key`, or the key alone at the top. */
  function ChildPath(prefix: string, key: string): (r: string)
    ensures prefix == "" ==> r == key
    ensures prefix != "" ==> r == prefix + "/" + key
  {
    if prefix != "" then prefix + "/" + key else key
  }

  /** `parse_yaml_node`: a list at `prefix` is the name `__prefix__` and is
      not looked into; a mapping contributes its children's names in key
      order; a scalar contributes nothing. */
  function ParseYamlNode(node: Yaml, prefix: string): (r: seq<string>)
    ensures node.Sequence? ==> r == [Wrap(prefix)]
    ensures node.Scalar? ==> r == []
    ensures forall i :: 0 <= i < |r| ==> IsWildcardName(r[i])
    decreases node
  {
    match node
    case Mapping(entries) => ParseEntries(entries, prefix)
    case Sequence(_) => [Wrap(prefix)]
    case Scalar(_) => []
  }

  /** The names of a run of mapping entries, in order. */
  function ParseEntries(entries: seq<Entry>, prefix: string): (r: seq<string>)
    ensures forall i :: 0 <= i < |r| ==> IsWildcardName(r[i])
    decreases entries
  {
    if |entries| == 0 then []
    else
      assert entries[0] in entries;
      ParseYamlNode(entries[0].value, ChildPath(prefix, entries[0].key)) + ParseEntries(entries[1..], prefix)
  }

  /** A mapping's names are its entries' names in order: splitting the
      entries splits the names. */
  lemma {:induction false} ParseEntriesConcat(a: seq<Entry>, b: seq<Entry>, prefix: string)
    ensures ParseEntries(a + b, prefix) == ParseEntries(a, prefix) + ParseEntries(b, prefix)
    decreases |a|
  {
    if |a| > 0 {
      assert (a + b)[0] == a[0] && (a + b)[1..] == a[1..] + b;
      ParseEntriesConcat(a[1..], b, prefix);
    } else {
      assert a + b == b;
    }
  }

  /** A mapping with one entry names what its child names, one level down. */
  lemma SingleEntry(key: string, child: Yaml, prefix: string)
    ensures ParseYamlNode(Mapping([Entry(key, child)]), prefix) == ParseYamlNode(child, ChildPath(prefix, key))
  {
    var entries := [Entry(key, child)];
    assert entries[1..] == [];
    assert ParseEntries(entries[1..], prefix) == [];
    assert ParseEntries(entries, prefix) == ParseYamlNode(child, ChildPath(prefix, key)) + [];
  }

  /** Python's `<` on strings: code point by code point, a proper prefix first. */
  predicate LexLess(a: string, b: string)
    decreases |a|
  {
    |b| > 0 && (|a| == 0 || a[0] < b[0] || (a[0] == b[0] && LexLess(a[1..], b[1..])))
  }

  lemma {:induction false} LexIrreflexive(a: string)
    ensures !LexLess(a, a)
    decreases |a|
  {
    if |a| > 0 {
      LexIrreflexive(a[1..]);
    }
  }

  lemma {:induction false} LexTransitive(a: string, b: string, c: string)
    requires LexLess(a, b) && LexLess(b, c)
    ensures LexLess(a, c)
    decreases |a|
  {
    if |a| > 0 && a[0] == b[0] && b[0] == c[0] {
      LexTransitive(a[1..], b[1..], c[1..]);
    }
  }

  lemma {:induction false} LexTotal(a: string, b: string)
    requires a != b
    ensures LexLess(a, b) || LexLess(b, a)
    decreases |a|
  {
    if |a| > 0 && |b| > 0 && a[0] == b[0] {
      assert a == [a[0]] + a[1..] && b == [b[0]] + b[1..];
      LexTotal(a[1..], b[1..]);
    }
  }

  lemma {:induction false} LexAsymmetric(a: string, b: string)
    requires LexLess(a, b)
    ensures !LexLess(b, a)
    decreases |a|
  {
    if |a| > 0 && a[0] == b[0] {
      LexAsymmetric(a[1..], b[1..]);
    }
  }

  /** Strictly ascending, hence without duplicates. */
  predicate StrictlySorted(s: seq<string>)
  {
    forall i, j :: 0 <= i < j < |s| ==> LexLess(s[i], s[j])
  }

  /** `x` put into its place in a strictly ascending list, unless already there. */
  function InsertSorted(x: string, s: seq<string>): (r: seq<string>)
    requires StrictlySorted(s)
    ensures StrictlySorted(r)
    ensures forall y :: y in r <==> y in s || y == x
    decreases |s|
  {
    if |s| == 0 then [x]
    else if x == s[0] then s
    else if LexLess(x, s[0]) then
      InsertBefore(x, s);
      [x] + s
    else
      var rest := InsertSorted(x, s[1..]);
      LexTotal(x, s[0]);
      InsertAfter(s, rest, x);
      [s[0]] + rest
  }

  lemma InsertBefore(x: string, s: seq<string>)
    requires StrictlySorted(s) && |s| > 0 && LexLess(x, s[0])
    ensures StrictlySorted([x] + s)
  {
    var r := [x] + s;
    forall i, j | 0 <= i < j < |r|
      ensures LexLess(r[i], r[j])
    {
      if i == 0 && j > 1 {
        LexTransitive(x, s[0], s[j - 1]);
      }
    }
  }

  lemma InsertAfter(s: seq<string>, rest: seq<string>, x: string)
    requires StrictlySorted(s) && |s| > 0 && LexLess(s[0], x)
    requires StrictlySorted(rest)
    requires forall y :: y in rest ==> y in s[1..] || y == x
    ensures StrictlySorted([s[0]] + rest)
  {
    var r := [s[0]] + rest;
    forall i, j | 0 <= i < j < |r|
      ensures LexLess(r[i], r[j])
    {
      if i == 0 {
        assert r[j] in rest;
      }
    }
  }

  /** `sorted(set(names))`: strictly ascending, with exactly the names given. */
  function SortedSet(names: seq<string>): (r: seq<string>)
    ensures StrictlySorted(r)
    ensures forall y :: y in r <==> y in names
  {
    if |names| == 0 then []
    else
      var rest := SortedSet(names[1..]);
      assert forall y :: y in names <==> y == names[0] || y in names[1..];
      InsertSorted(names[0], rest)
  }

  /** A strictly ascending list is fixed by its members. */
  lemma {:induction false} SortedSetUnique(a: seq<string>, b: seq<string>)
    requires StrictlySorted(a) && StrictlySorted(b)
    requires forall y :: y in a <==> y in b
    ensures a == b
    decreases |a|
  {
    if |a| > 0 {
      assert a[0] in b;
      assert b[0] in a;
      if a[0] != b[0] {
        var i :| 0 <= i < |b| && b[i] == a[0];
        var j :| 0 <= j < |a| && a[j] == b[0];
        LexAsymmetric(a[0], a[j]);
      }
      forall y
        ensures y in a[1..] <==> y in b[1..]
      {
        if y in a[1..] {
          var i :| 1 <= i < |a| && a[i] == y;
          LexIrreflexive(a[0]);
          assert y in b && y != b[0];
          var k :| 0 <= k < |b| && b[k] == y;
          assert b[1..][k - 1] == y;
        }
        if y in b[1..] {
          var i :| 1 <= i < |b| && b[i] == y;
          LexIrreflexive(b[0]);
          assert y in a && y != a[0];
          var k :| 0 <= k < |a| && a[k] == y;
          assert a[1..][k - 1] == y;
        }
      }
      SortedSetUnique(a[1..], b[1..]);
    } else {
      HeadIsMember(b);
    }
  }

  lemma HeadIsMember(s: seq<string>)
    ensures |s| > 0 ==> s[0] in s
  {
  }

  /** The test `if data:` before a YAML file's names are taken. */
  predicate Truthy(doc: Yaml)
  {
    match doc
    case Mapping(entries) => |entries| > 0
    case Sequence(items) => |items| > 0
    case Scalar(t) => t
  }

  /** The names of one YAML file; a file that failed to load contributes none. */
  function YamlFileNames(loaded: Option<Yaml>): (r: seq<string>)
    ensures loaded.None? ==> r == []
    ensures forall i :: 0 <= i < |r| ==> IsWildcardName(r[i])
  {
    match loaded
    case None => []
    case Some(doc) => if Truthy(doc) then ParseYamlNode(doc, "") else []
  }

  /** Every name collected, in collection order: the `.txt` names, then each YAML file's. */
  function Collected(txtFiles: seq<string>, yamlFiles: seq<Option<Yaml>>): (r: seq<string>)
    requires forall i :: 0 <= i < |txtFiles| ==> TxtFileName(txtFiles[i])
    ensures forall i :: 0 <= i < |r| ==> IsWildcardName(r[i])
    decreases |txtFiles| + |yamlFiles|
  {
    if |txtFiles| > 0 then
      [TxtName(txtFiles[0])] + Collected(txtFiles[1..], yamlFiles)
    else if |yamlFiles| > 0 then
      YamlFileNames(yamlFiles[0]) + Collected([], yamlFiles[1..])
    else []
  }

  /** `get_wildcards`: nothing when the wildcard directory is missing;
      otherwise every collected name once, in ascending order, each wrapped
      in the delimiter. */
  function GetWildcards(dirExists: bool, txtFiles: seq<string>, yamlFiles: seq<Option<Yaml>>): (r: seq<string>)
    requires forall i :: 0 <= i < |txtFiles| ==> TxtFileName(txtFiles[i])
    ensures !dirExists ==> r == []
    ensures StrictlySorted(r)
    ensures forall y :: y in r <==> dirExists && y in Collected(txtFiles, yamlFiles)
    ensures forall i :: 0 <= i < |r| ==> IsWildcardName(r[i])
  {
    if !dirExists then []
    else
      var names := Collected(txtFiles, yamlFiles);
      var r := SortedSet(names);
      assert forall i :: 0 <= i < |r| ==> r[i] in names;
      r
  }

  lemma {:induction false} TxtCollected(txtFiles: seq<string>, yamlFiles: seq<Option<Yaml>>, i: nat)
    requires forall k :: 0 <= k < |txtFiles| ==> TxtFileName(txtFiles[k])
    requires i < |txtFiles|
    ensures TxtName(txtFiles[i]) in Collected(txtFiles, yamlFiles)
    decreases i
  {
    if i > 0 {
      TxtCollected(txtFiles[1..], yamlFiles, i - 1);
    }
  }

  lemma {:induction false} YamlCollected(txtFiles: seq<string>, yamlFiles: seq<Option<Yaml>>, j: nat, name: string)
    requires forall k :: 0 <= k < |txtFiles| ==> TxtFileName(txtFiles[k])
    requires j < |yamlFiles| && name in YamlFileNames(yamlFiles[j])
    ensures name in Collected(txtFiles, yamlFiles)
    decreases |txtFiles| + j
  {
    if |txtFiles| > 0 {
      YamlCollected(txtFiles[1..], yamlFiles, j, name);
    } else if j > 0 {
      YamlCollected([], yamlFiles[1..], j - 1, name);
    }
  }

  /** A `.txt` file contributes exactly its stem in the delimiter. */
  lemma TxtFileListed(txtFiles: seq<string>, yamlFiles: seq<Option<Yaml>>, i: nat)
    requires forall k :: 0 <= k < |txtFiles| ==> TxtFileName(txtFiles[k])
    requires i < |txtFiles|
    ensures Wrap(TxtStem(txtFiles[i])) in GetWildcards(true, txtFiles, yamlFiles)
  {
    TxtCollected(txtFiles, yamlFiles, i);
  }

  /** Each name found in a YAML file that loaded is listed. */
  lemma YamlFileListed(txtFiles: seq<string>, yamlFiles: seq<Option<Yaml>>, j: nat, name: string)
    requires forall k :: 0 <= k < |txtFiles| ==> TxtFileName(txtFiles[k])
    requires j < |yamlFiles| && name in YamlFileNames(yamlFiles[j])
    ensures name in GetWildcards(true, txtFiles, yamlFiles)
  {
    YamlCollected(txtFiles, yamlFiles, j, name);
  }

  /** The truth test tells an empty top-level list, which is skipped, from a
      non-empty one, which is named `____` since its path is empty; an empty
      list below a mapping is named like any other. */
  lemma TopLevelLists(key: string)
    ensures GetWildcards(true, [], [Some(Sequence([]))]) == []
    ensures GetWildcards(true, [], [Some(Sequence([Scalar(true)]))]) == ["____"]
    ensures GetWildcards(true, [], [Some(Mapping([Entry(key, Sequence([]))]))]) == [Wrap(key)]
  {
    assert Collected([], [Some(Sequence([]))]) == [] by {
      assert [Some(Sequence([]))][1..] == [];
    }
    var top := GetWildcards(true, [], [Some(Sequence([Scalar(true)]))]);
    assert Collected([], [Some(Sequence([Scalar(true)]))]) == ["____"] by {
      assert [Some(Sequence([Scalar(true)]))][1..] == [];
      assert Wrap("") == "____";
    }
    SortedSetUnique(top, ["____"]);
    var nested := GetWildcards(true, [], [Some(Mapping([Entry(key, Sequence([]))]))]);
    assert Collected([], [Some(Mapping([Entry(key, Sequence([]))]))]) == [Wrap(key)] by {
      assert [Some(Mapping([Entry(key, Sequence([]))]))][1..] == [];
      SingleEntry(key, Sequence([]), "");
    }
    SortedSetUnique(nested, [Wrap(key)]);
  }
}

=== FILE: wrappers.dfy ===
/** Failure-carrying datatypes shared by the whole model. */
module Wrappers {

  /** A value that may be absent (Python `None`, JavaScript `NaN`/`null`/`-1`). */
  datatype Option<+T> = None | Some(value: T)

  /** The outcome of an operation that may raise an exception. */
  datatype Result<+T, +E> = Ok(value: T) | Err(error: E)
}
